=== FILE: README.md ===
# Chemical equation balancer: a Dafny model

This project models the balancer of `scripts/app.py`. The balancer reads an
equation such as `KNO3 = KNO2 + O2` and works in stages:

1. It splits the equation into its two sides and each side into molecules (`getSideOfEquation`).
2. It cuts every molecule into element tokens such as `H2`, `S`, `O4` (`formatSideOfEquation`).
3. It lists the element symbols in order of first appearance (`getElementsOfEquation`).
4. It builds the conservation matrix, with one row per element and one column per molecule (`createMatrixOfChemEquation`).
5. It brings the matrix to upper triangular form by Gaussian elimination with row swaps (`pivot`, `gauss`).
6. It fixes the free unknowns to 1 and solves for the others (`backSubst`).
7. It scales the rational roots to whole numbers by the least common multiple of their denominators (`gcd`, `lcm`, `lcmMultiple`, `balanceCoefficients`).

Every stage is a pure function here. A Python exception becomes a `Failure` carrying the error kind:

- `IndexError`: a missing `=`, an empty matrix, more equations than unknowns, or fewer than two numbers for `lcmMultiple`.
- `ValueError`: `int()` of an unreadable count.
- `ZeroDivisionError`: a zero on the diagonal in `backSubst`.
- `NoPivot`: `gauss` returning `False`.

Floats are modelled by exact `real` numbers.

The modules follow the stages:

- `Wrappers`: `Option`, `Result`, error kinds.
- `Text`: `str.split`, `str.strip`, character classes.
- `PyInt`: `int()` in base 10.
- `Parsing`: sides, tokens, element list.
- `MatrixBuilder`: atom counts and the matrix.
- `Linear`: vectors, dot products, solutions.
- `Elimination`: `pivot` and `gauss`.
- `BackSubstitution`: `backSubst`.
- `Scaling`: `gcd`, `lcm`, `lcmMultiple`, `balanceCoefficients`.
- `Solvability`: what the outcome of the elimination says about the system.
- `Balancer`: the stages composed.

Where a natural description of the balancer and the code disagree, the model follows the code:

- The code does not make the coefficients positive.
- The code raises plain Python exceptions, not typed errors.
- The code recognises element symbols by the "next character is lower case" test, not by a periodic table.
- The code never divides the coefficients by a common factor. It does not need to: they are the roots times the least common denominator of the reduced fractions, and one root is 1, so no whole number greater than 1 divides them all (`Balancer.CoefficientsCoprime`).

## Model

| member | source | states |
|---|---|---|
| Text.Split | scripts/app.py:24 | `str.split` on one character: at least one piece, no piece contains the separator, and joining the pieces with the separator gives the text back |
| Text.SplitJoin | scripts/app.py:24 | splitting the join of separator-free pieces gives exactly those pieces (the inverse direction of `Split`) |
| Text.StripTrims | scripts/app.py:24 | `strip()` leaves a contiguous piece of the text with only whitespace before and after it and no whitespace at either of its own ends |
| Text.StripPadded | scripts/app.py:24 | any run of whitespace before and after a text with no outer whitespace is exactly what `strip()` removes |
| Parsing.GetSide | scripts/app.py:9-24 | side `True` gives the `+`-pieces of the text before the first `=`, side `False` those of the second `=`-field, one result per piece; every result is its piece with surrounding whitespace removed, has no whitespace at either end and contains neither `+` nor `=`; it fails exactly when asked for the right side of a text without `=`, and then with an index error |
| Parsing.RenderThenGetSides | scripts/app.py:9-24 | writing two molecule lists as `a + b = c + d` and reading both sides back gives the two lists |
| Parsing.SplitBeforeUpper | scripts/app.py:6 | the lookahead split cuts before every upper-case letter and nowhere else: the pieces concatenate to the text, every piece but the first starts with an upper-case letter and has no other |
| Parsing.NonEmpty | scripts/app.py:36 | the filter `if element` keeps only non-empty pieces, keeps every non-empty piece, and concatenates to the same text |
| Parsing.NonEmptyAppend | scripts/app.py:36 | the filter distributes over concatenation: the pieces kept from `xs + ys` are those kept from `xs` followed by those kept from `ys`, which fixes their order |
| Parsing.NonEmptySingle | scripts/app.py:36 | a single piece is kept exactly when it is non-empty |
| Parsing.Tokenize | scripts/app.py:36 | the tokens of a formula concatenate to it, none is empty, none has an inner upper-case letter, and all but the first start with one |
| Parsing.TokenizeUnique | scripts/app.py:36 | any cut with those properties is the one the tokenizer returns, so the properties define it |
| Parsing.FormatSide | scripts/app.py:27-39 | every molecule of a side is tokenised as above, one token list per molecule |
| Parsing.ElementPrefix | scripts/app.py:52 | `re.split(r'(?=\d)', token)[0]` is the longest digit-free prefix of the token: it is a prefix, has no digit, and is followed by a digit or the end |
| Parsing.FirstIndex | scripts/app.py:53 | the position of the first occurrence of a value that `in` finds |
| Parsing.Dedupe | scripts/app.py:53-54 | the append-if-absent loop keeps every value once, keeps only values of the input, and orders them by first occurrence |
| Parsing.ElementsOf | scripts/app.py:42-56 | the element list has no repeats, contains the digit-free prefix of every token, contains nothing else, and lists the prefixes in order of first appearance |
| PyInt.ParseDigits | scripts/app.py:84 | `int()` of a run of ASCII digits is the decimal number they spell |
| PyInt.ParseNegativeDigits | scripts/app.py:84 | `int()` of a minus sign followed by digits is the negated number |
| PyInt.ParseShow | scripts/app.py:84 | `int(str(n)) == n` for every integer |
| PyInt.ParseInt | scripts/app.py:84 | `int()` of an unreadable text fails with a value error and nothing else |
| PyInt.TrimFrontSkips | scripts/app.py:84 | `int()` skips a leading run of the whitespace it accepts: what remains is a suffix of the text, everything skipped is such whitespace, and what remains does not start with it |
| PyInt.TrimBackDrops | scripts/app.py:84 | likewise for the trailing run: what remains is a prefix, everything dropped is whitespace `int()` accepts, and what remains does not end with it |
| PyInt.FrontUnique | scripts/app.py:84 | the leading skip stops exactly at the first character that is not such whitespace |
| PyInt.BackUnique | scripts/app.py:84 | the trailing drop stops exactly after the last character that is not such whitespace |
| PyInt.TrimPadded | scripts/app.py:84 | any runs of that whitespace around a text with no such whitespace at its ends are exactly what `int()` skips |
| PyInt.ParsePadded | scripts/app.py:84 | `int()` of digits with that whitespace on either side is the number the digits spell |
| PyInt.UnitSeparatorNotSkipped | scripts/app.py:84 | `strip()` removes a trailing U+001F but `int()` does not skip it: `int('2\x1f')` is a value error |
| MatrixBuilder.Contribution | scripts/app.py:80-87 | a token that does not start with the symbol adds nothing; an unreadable count is a value error |
| MatrixBuilder.ContributionOfCount | scripts/app.py:80-84 | a symbol followed by digits adds the number the digits spell (`H2` adds 2 to `H`) |
| MatrixBuilder.ContributionOfBareSymbol | scripts/app.py:85-86 | the bare symbol adds 1 |
| MatrixBuilder.ContributionOfLongerSymbol | scripts/app.py:81-83 | a lower-case letter after the symbol means another element and adds nothing (`Cl4` adds nothing to `C`) |
| MatrixBuilder.SignedCount | scripts/app.py:59-62 | the intended entry: the atom count of the molecule, negated on the right-hand side; a value error exactly when a count is unreadable |
| MatrixBuilder.CountAsWritten | scripts/app.py:77-89 | the count as the loop computes it fails exactly when the atom count fails, and only with a value error |
| MatrixBuilder.LeftCountAsWritten | scripts/app.py:77-87 | on the left-hand side the loop as written adds up every contribution, so the count is the atom count for any tokens |
| MatrixBuilder.CountAsWrittenAgrees | scripts/app.py:88-89 | the count as written is the intended signed count for every left-hand molecule, and for a right-hand one when at most one token starts with the symbol |
| MatrixBuilder.OneMatchCounts | scripts/app.py:79-89 | with exactly one matching token the loop adds its contribution and negates the running count once on the right-hand side |
| MatrixBuilder.CarbonTetrachlorideOnRight | scripts/app.py:88-89 | `CCl4` on the right gives +1 carbon as written where -1 is intended |
| MatrixBuilder.CreateMatrix | scripts/app.py:63-95 | one row per element and one column per molecule, left first; entry `[e][i]` is the atom count of element `e` in molecule `i`, negated for right-hand molecules; a value error exactly when some count is unreadable |
| MatrixBuilder.CreateMatrixAsWritten | scripts/app.py:63-95 | the matrix as the source builds it has the same shape and fails in the same cases, always with a value error, with each entry the count as written |
| MatrixBuilder.AsWrittenAgrees | scripts/app.py:88-89 | when no right-hand molecule has two tokens starting with the same symbol, the matrix as written is the intended one; left-hand molecules need no condition |
| Elimination.FirstNonzeroBelow | scripts/app.py:100-102 | the scan stops at the first row with a nonzero entry in the column, or at the end when there is none |
| Elimination.Pivot | scripts/app.py:98-107 | `pivot` fails exactly when every entry below the diagonal in the column is zero; otherwise it swaps in the first row with a nonzero entry, which leaves every other row in place and a nonzero diagonal entry |
| Elimination.PivotSolutions | scripts/app.py:106 | swapping two rows keeps exactly the solutions of the system |
| Elimination.EliminateBelow | scripts/app.py:124-127 | after the step for `row` every entry below the diagonal in column `row` is zero, the rows down to `row` are unchanged, and so are the columns left of `row` |
| Elimination.LowerRowCombines | scripts/app.py:125-127 | each lower row becomes itself plus `factor` times the pivot row |
| Elimination.EliminateBelowSolutions | scripts/app.py:124-127 | the step keeps every solution of the system and adds none |
| Elimination.PivotStep | scripts/app.py:119-122 | the elimination stops with `False` exactly when the diagonal entry of a row above the last is zero and nothing below it can be swapped in |
| Elimination.Eliminate | scripts/app.py:117-127 | the row loop yields an upper triangular matrix of the same shape with a nonzero diagonal above its last row; it fails only where `pivot` fails, or with an index error when there are more rows than columns |
| Elimination.EliminateSolutions | scripts/app.py:117-127 | the whole row loop keeps exactly the solutions of the system |
| Elimination.DropTrailing | scripts/app.py:130-132 | rows are dropped from the bottom until fewer rows than columns remain, and what remains is a prefix of the rows |
| Elimination.Gauss | scripts/app.py:110-134 | the result is upper triangular with fewer rows than columns, one fewer than a square input, with a nonzero diagonal (above the last row, and everywhere for a square input); failures are `NoPivot`, or an index error for an empty matrix or more equations than unknowns |
| Elimination.GaussKeepsSolutions | scripts/app.py:110-134 | every solution of the input solves the result |
| Elimination.HydrogenToOxygen | scripts/app.py:129-132 | for `H2 = O2` the dropped row is nonzero, so the result has a solution the input lacks |
| Elimination.GaussChecked | scripts/app.py:129-132 | the elimination with the drop guarded: on success the same shape, triangularity and nonzero diagonal as `Gauss`; failures are `NoPivot`, an index error for an empty matrix or more equations than unknowns, or `NonzeroRowDropped`, and the last exactly when the row loop succeeds on a square matrix and leaves a nonzero bottom row |
| Elimination.GaussCheckedRefines | scripts/app.py:129-132 | the guarded elimination agrees with `gauss` whenever it succeeds; where `gauss` succeeds, the guarded one fails exactly when the eliminated matrix is square with a nonzero bottom row |
| Elimination.TriangularOnlyZero | scripts/app.py:129-132 | a square upper triangular system with a nonzero diagonal has only the zero solution |
| Elimination.RejectedOnlyZero | scripts/app.py:129-132 | a system rejected for a nonzero dropped row has only the zero solution, so the rejection loses no balance |
| Elimination.PotassiumNitrateChecked | scripts/app.py:110-134 | for `KNO3 = KNO2 + O2` the row loop swaps in the oxygen row, leaves a zero bottom row, and the guarded elimination returns the two upper rows |
| Elimination.GaussCheckedSolutions | scripts/app.py:129-132 | the guarded elimination keeps exactly the solutions of the input |
| Elimination.HydrogenToOxygenChecked | scripts/app.py:129-132 | the guarded elimination rejects `H2 = O2` |
| BackSubstitution.SetTrailingOnes | scripts/app.py:146-147 | the loop `roots[-i] = 1` for `i` from its start to `count` sets exactly those positions, counted from the end, to 1 and leaves every other position alone |
| BackSubstitution.InitialRoots | scripts/app.py:144-147 | `[0] * WIDTH` followed by that loop for `WIDTH - HEIGHT` parameters gives roots that are 1 for the last `WIDTH - HEIGHT` unknowns and 0 for the rest |
| BackSubstitution.Solve | scripts/app.py:149-153 | the bottom-up loop succeeds exactly when the diagonal entries it divides by are nonzero, fails with a division by zero otherwise, and leaves the unknowns below its start alone |
| BackSubstitution.BackSubst | scripts/app.py:138-155 | success exactly for a non-empty matrix with no more rows than columns and a nonzero diagonal; one root per column, the trailing `WIDTH - HEIGHT` of them 1; index error or division by zero otherwise |
| BackSubstitution.BackSubstSolves | scripts/app.py:149-153 | for an upper triangular input the roots satisfy every equation |
| BackSubstitution.BackSubstUnique | scripts/app.py:138-155 | every solution whose free unknowns are 1 is the vector of roots |
| Scaling.Gcd | scripts/app.py:158-166 | the subtraction loop returns a positive number no greater than either argument |
| Scaling.GcdDivides | scripts/app.py:158-166 | the result divides both arguments |
| Scaling.GcdGreatest | scripts/app.py:158-166 | every common divisor divides the result, so it is the greatest |
| Scaling.GcdCombination | scripts/app.py:158-166 | the result is an integer combination of the arguments |
| Scaling.Lcm | scripts/app.py:169-171 | the result is a positive multiple of both arguments, and its product with their gcd is their product |
| Scaling.LcmLeast | scripts/app.py:169-171 | every positive common multiple is a multiple of the result, so it is the least |
| Scaling.LcmFold | scripts/app.py:177-178 | the loop keeps a positive multiple of the running value and of every number it folds in |
| Scaling.LcmMultiple | scripts/app.py:174-180 | an index error exactly for fewer than two numbers; otherwise a positive common multiple of all of them |
| Scaling.LcmMultipleLeast | scripts/app.py:174-180 | every positive common multiple of the numbers is a multiple of the result |
| Scaling.ScaleExact | scripts/app.py:188 | a fraction times a multiple of its denominator, truncated toward zero, is exactly the product |
| Scaling.ScaleAllExact | scripts/app.py:188 | when every denominator divides the common denominator, each whole number is its fraction times that common denominator |
| Scaling.BalanceCoefficients | scripts/app.py:183-190 | for fractions in lowest terms, as Python keeps them: an index error exactly for fewer than two fractions; otherwise one whole number per fraction, equal to it times the least common multiple of the denominators |
| Scaling.ReducedOne | scripts/app.py:185 | a fraction in lowest terms worth 1 is `1/1` |
| Scaling.BalancedCoprime | scripts/app.py:183-190 | when one of the reduced fractions is `1/1`, no whole number greater than 1 divides every coefficient |
| Solvability.StuckIsDependent | scripts/app.py:117-127 | where the row loop fails, some column left of the last row's diagonal is a combination of the columns before it, shown by a solution that is 1 there and 0 after it |
| Solvability.SolvedIndependent | scripts/app.py:117-127 | where the row loop succeeds, a solution that is 0 after an unknown left of the last row is 0 there too |
| Solvability.EliminateFailsIff | scripts/app.py:98-127 | with no more rows than columns, the row loop returns `False` exactly when some column left of the last row's diagonal is a combination of the columns before it |
| Solvability.CheckedAcceptsIff | scripts/app.py:129-132 | among the systems `gauss` accepts, the guarded elimination accepts exactly those with a solution other than zero |
| Balancer.RowMeaning | scripts/app.py:59-62 | row `e` of the matrix applied to the coefficients is the atoms of element `e` on the left minus those on the right |
| Balancer.SolutionConserves | scripts/app.py:59-62 | a vector solves the conservation matrix exactly when, used as coefficients, it balances every element |
| Balancer.ScaledSolves | scripts/app.py:188 | coefficients proportional to a solution are a solution |
| Balancer.CoefficientsSolve | scripts/app.py:138-190 | the whole coefficients computed from the roots of an upper triangular system solve it |
| Balancer.CheckedPipelineSolves | scripts/app.py:110-190 | through the guarded elimination the whole coefficients solve the original system |
| Balancer.CoefficientsCoprime | scripts/app.py:138-190 | for a system with fewer rows than columns, back substitution sets the last root to 1, so the coefficients scaled from the reduced roots have no common factor greater than 1 |
| Balancer.CheckedPipelineCoprime | scripts/app.py:110-190 | through the guarded elimination the coefficients have no common factor greater than 1: they are the smallest whole numbers in the proportion of the roots |
| Balancer.PipelineSolvesReduced | scripts/app.py:110-190 | through `gauss` as written they are only guaranteed to solve the reduced system |
| Balancer.CoefficientsConserveAtoms | scripts/app.py:59-95 | end to end: the coefficients from the conservation matrix conserve every element between the two sides |

## Left out

- `Fraction(c).limit_denominator()` (line 185) and floating-point rounding are not modelled. Arithmetic is exact. `balanceCoefficients` takes the fractions directly, in lowest terms with a positive denominator as Python's `Fraction` keeps them, and the pipeline lemmas assume each fraction equals its root.
- The `== 0` tests at lines 101 and 119 compare exact reals, not floats near zero.
- The `re` module is not modelled. The two lookahead splits are stated directly: cut before each upper-case letter, and keep the prefix before the first digit.
- Only ASCII digits count as digits. Python's `int()` at line 84, and the `\d` of the element pattern at line 7 (`Parsing.ElementPrefix`), also accept other Unicode decimal digits.
- PyInt.ParseInt: its contract states only that failure is a value error. Its behaviour on digits, signs, surrounding whitespace and `int(str(n))` is stated by `ParseDigits`, `ParseNegativeDigits`, `ParsePadded` and `ParseShow`, not for every accepted spelling (underscores between digits, a leading `+`).
- The whitespace `int()` skips is Python's whitespace other than U+001C to U+001F, which `strip()` removes but `int()` rejects (`PyInt.IsIntSpace`, `PyInt.UnitSeparatorNotSkipped`).
- Scaling.Gcd: requires positive arguments. On zero or negative arguments the source loops forever unless they are equal, in which case it returns the argument; its callers pass positive denominators only.
- Scaling.Lcm: the `abs` of line 171 is the identity on the positive arguments the model allows.
- Elimination.GaussKeepsSolutions: states only that solutions are kept. The converse fails for `gauss` as written; see Findings.
- The elimination works on matrices whose rows all have the same length. In Python a row shorter than the first can raise an index error, while longer rows can pass unnoticed. The conservation matrix is always rectangular, so rectangularity is required.
- The doc example at line 47 lists `['Na', 'H', 'C', 'O', 'Cl']`. The model follows the code, which yields the symbols in order of first appearance.
- The code never makes coefficients positive, and neither does the model.
- Reading the equation from the user and printing the result are not part of `scripts/app.py`.
- The in-place mutation of the matrix by `pivot` and `gauss` is modelled by returning new matrices.

## Findings

| source | as written | input that shows it | evidently intended | confidence | as-written member | corrected member |
|---|---|---|---|---|---|---|
| scripts/app.py:88-89 | the right-hand sign flip sits inside the token loop, so the running count is negated once per token starting with the symbol | `CCl4` on the right-hand side: tokens `C` and `Cl4` both start with `C`, and the entry is +1 | the atom count negated once for a right-hand molecule, giving -1 | high (not executed) | MatrixBuilder.CountAsWritten | MatrixBuilder.SignedCount |
| scripts/app.py:129-132 | the rows dropped after elimination are not checked to be zero | `H2 = O2`: matrix `[[2, 0], [0, -2]]`; `gauss` returns `[[2, 0]]`, which `(0, 1)` solves although the equation has no non-zero balance | a nonzero dropped row means the system has only the zero solution and should be reported | high (not executed) | Elimination.Gauss | Elimination.GaussChecked |

For the first row, `CarbonTetrachlorideOnRight` exhibits the discrepancy. `LeftCountAsWritten`, `CountAsWrittenAgrees` and `AsWrittenAgrees` prove that the two agree on every left-hand molecule, and on a right-hand molecule when at most one of its tokens starts with the symbol. The model's matrix, `CreateMatrix`, uses the corrected count.

For the second row, `HydrogenToOxygen` exhibits the discrepancy. `GaussCheckedSolutions` proves that the guarded elimination keeps exactly the solutions, and `CheckedPipelineSolves` carries that to the coefficients. `RejectedOnlyZero` proves that a rejected system has only the zero solution, `Solvability.CheckedAcceptsIff` that the guard rejects exactly those, and `PotassiumNitrateChecked` shows a balanceable equation passing the guard.

=== FILE: backsubst.dfy ===
/** Back substitution (`backSubst`, scripts/app.py lines 138-155): the
    trailing unknowns beyond the number of equations are the free parameters
    and are fixed to 1; the others are solved for from the bottom row up. */
module BackSubstitution {
  import opened Wrappers
  import opened Linear
  import opened Elimination

  /** The loop of lines 146-147 from `i` on: for each `i` up to `count`
      (the source's `parametersCount`, negative when there are more rows
      than columns) entry `|roots| - i` becomes 1. Entries `|roots| - count`
      to `|roots| - i` end up 1 and every other entry is left alone. */
  function SetTrailingOnes(roots: Vector, i: nat, count: int): (r: Vector)
    requires 1 <= i && count <= |roots|
    ensures |r| == |roots|
    ensures forall j :: 0 <= j < |roots| ==>
      r[j] == if i <= |roots| - j <= count then 1.0 else roots[j]
    decreases count - i + 1
  {
    if i > count then roots
    else SetTrailingOnes(roots[|roots| - i := 1.0], i + 1, count)
  }

  /** The starting roots of lines 144-147: `[0] * WIDTH` with the loop above
      run for `WIDTH - HEIGHT` parameters, which makes the last
      `width - height` entries 1 and the rest 0. */
  function InitialRoots(width: nat, height: nat): (v: Vector)
    ensures |v| == width
    ensures forall j :: 0 <= j < width ==> v[j] == if j >= height then 1.0 else 0.0
  {
    SetTrailingOnes(seq(width, _ => 0.0), 1, width - height)
  }

  /** The value line 153 gives to unknown `i` once the unknowns after it are known. */
  function RootAt(u: Matrix, roots: Vector, i: nat): real
    requires i < |u| && i < |u[i]| && |u[i]| == |roots| && u[i][i] != 0.0
  {
    -Dot(u[i][i + 1..], roots[i + 1..]) / u[i][i]
  }

  /** The loop of lines 149-153 over rows `n - 1` down to 0. A zero diagonal
      entry makes the division fail. */
  function Solve(u: Matrix, roots: Vector, n: nat): (r: Checked<Vector>)
    requires n <= |u| && Rect(u, |roots|) && |u| <= |roots|
    ensures r.Success? <==> forall i :: 0 <= i < n ==> u[i][i] != 0.0
    ensures r.Failure? ==> r.error == ZeroDivisionError
    ensures r.Success? ==> |r.value| == |roots| && forall j :: n <= j < |roots| ==> r.value[j] == roots[j]
    decreases n
  {
    if n == 0 then Success(roots)
    else
      var i := n - 1;
      if u[i][i] == 0.0 then Failure(ZeroDivisionError)
      else Solve(u, roots[i := RootAt(u, roots, i)], i)
  }

  /** `backSubst(UTMatrix)`: an empty matrix has no first row to measure (an
      index error), and so does one with more rows than columns, whose bottom
      diagonal entry lies past the last column; a zero on the diagonal is a
      division by zero. Otherwise the roots have one entry per column, and the
      trailing `width - height` of them are 1. */
  function BackSubst(u: Matrix): (r: Checked<Vector>)
    requires |u| > 0 ==> Rect(u, |u[0]|)
    ensures r.Success? <==>
      0 < |u| <= |u[0]| && forall i :: 0 <= i < |u| ==> u[i][i] != 0.0
    ensures r.Failure? ==>
      if 0 < |u| <= |u[0]| then r.error == ZeroDivisionError else r.error == IndexError
    ensures r.Success? ==>
      && |r.value| == |u[0]|
      && forall j :: |u| <= j < |u[0]| ==> r.value[j] == 1.0
  {
    if |u| == 0 then Failure(IndexError)
    else
      var width := |u[0]|;
      if |u| > width then Failure(IndexError)
      else Solve(u, InitialRoots(width, |u|), |u|)
  }

  // ---------------------------------------------------------------------------
  // The roots solve the system
  // ---------------------------------------------------------------------------

  /** Changing an unknown whose coefficient is zero leaves the dot product alone. */
  lemma {:induction false} DotIgnores(a: Vector, x: Vector, c: nat, v: real)
    requires |a| == |x| && c < |a| && a[c] == 0.0
    ensures Dot(a, x[c := v]) == Dot(a, x)
    decreases |a|
  {
    if c > 0 {
      assert x[c := v][1..] == x[1..][c - 1 := v];
      DotIgnores(a[1..], x[1..], c - 1, v);
    }
  }

  /** In a row that is zero before column `i`, the dot product is the term
      of unknown `i` plus the terms after it. */
  lemma DotFromDiagonal(a: Vector, x: Vector, i: nat)
    requires |a| == |x| && i < |a|
    requires forall c :: 0 <= c < i ==> a[c] == 0.0
    ensures Dot(a, x) == a[i] * x[i] + Dot(a[i + 1..], x[i + 1..])
  {
    DotSkipZeros(a, x, i);
    DotAt(a, x, i);
  }

  /** Row `i` of an upper triangular system is satisfied once unknown `i`
      takes the value line 153 computes. */
  lemma RootSolvesRow(u: Matrix, roots: Vector, i: nat)
    requires i < |u| && |u[i]| == |roots| && i < |roots| && u[i][i] != 0.0
    requires forall c :: 0 <= c < i ==> u[i][c] == 0.0
    ensures Dot(u[i], roots[i := RootAt(u, roots, i)]) == 0.0
  {
    var x := roots[i := RootAt(u, roots, i)];
    DotFromDiagonal(u[i], x, i);
    assert x[i + 1..] == roots[i + 1..];
  }

  /** Solving rows `n - 1` down to 0 of an upper triangular system whose rows
      from `n` on already hold gives roots that satisfy every row. */
  lemma {:induction false} SolveSolves(u: Matrix, roots: Vector, n: nat)
    requires n <= |u| && Rect(u, |roots|) && |u| <= |roots|
    requires UpperTriangular(u)
    requires forall i :: n <= i < |u| ==> Dot(u[i], roots) == 0.0
    requires Solve(u, roots, n).Success?
    ensures IsSolution(u, Solve(u, roots, n).value)
    decreases n
  {
    if n > 0 {
      var i := n - 1;
      var next := roots[i := RootAt(u, roots, i)];
      forall k | i < k < |u| ensures Dot(u[k], next) == 0.0 {
        DotIgnores(u[k], roots, i, RootAt(u, roots, i));
      }
      RootSolvesRow(u, roots, i);
      SolveSolves(u, next, i);
    }
  }

  /** Given an upper triangular matrix with nonzero diagonal and fewer rows
      than columns (the shape `gauss` produces), the roots satisfy every row
      of the system. */
  lemma BackSubstSolves(u: Matrix)
    requires |u| > 0 && Rect(u, |u[0]|) && UpperTriangular(u)
    requires BackSubst(u).Success?
    ensures IsSolution(u, BackSubst(u).value)
  {
    SolveSolves(u, InitialRoots(|u[0]|, |u|), |u|);
  }

  // ---------------------------------------------------------------------------
  // The roots are the only such solution
  // ---------------------------------------------------------------------------

  /** A satisfied row that is zero before column `i` balances the term of
      unknown `i` against the terms after it. */
  lemma RowBalances(a: Vector, x: Vector, i: nat)
    requires |a| == |x| && i < |a|
    requires forall c :: 0 <= c < i ==> a[c] == 0.0
    requires Dot(a, x) == 0.0
    ensures a[i] * x[i] + Dot(a[i + 1..], x[i + 1..]) == 0.0
  {
    DotFromDiagonal(a, x, i);
  }

  /** With a nonzero diagonal entry, the balance of a row fixes its unknown
      from the unknowns after it. */
  lemma RowDetermines(a: Vector, x: Vector, y: Vector, i: nat)
    requires |a| == |x| == |y| && i < |a| && a[i] != 0.0
    requires x[i + 1..] == y[i + 1..]
    requires a[i] * x[i] + Dot(a[i + 1..], x[i + 1..]) == 0.0
    requires a[i] * y[i] + Dot(a[i + 1..], y[i + 1..]) == 0.0
    ensures x[i] == y[i]
  {
    CancelNonzero(a[i], x[i], y[i], Dot(a[i + 1..], x[i + 1..]));
  }

  lemma CancelNonzero(d: real, p: real, q: real, s: real)
    requires d != 0.0 && d * p + s == 0.0 && d * q + s == 0.0
    ensures p == q
  {
    assert d * (p - q) == 0.0;
  }

  /** Two solutions of a row with a nonzero diagonal entry and zeros before
      it that agree after column `i` agree from `i` on. */
  lemma AgreeFrom(a: Vector, x: Vector, y: Vector, i: nat)
    requires |a| == |x| == |y| && i < |a| && a[i] != 0.0
    requires forall c :: 0 <= c < i ==> a[c] == 0.0
    requires x[i + 1..] == y[i + 1..]
    requires Dot(a, x) == 0.0 && Dot(a, y) == 0.0
    ensures x[i..] == y[i..]
  {
    RowBalances(a, x, i);
    RowBalances(a, y, i);
    RowDetermines(a, x, y, i);
    assert x[i..] == [x[i]] + x[i + 1..];
    assert y[i..] == [y[i]] + y[i + 1..];
  }

  /** Every solution of the system whose free unknowns are 1 is the vector
      back substitution returns. */
  lemma {:induction false} BackSubstUnique(u: Matrix, x: Vector)
    requires |u| > 0 && Rect(u, |u[0]|) && UpperTriangular(u)
    requires BackSubst(u).Success?
    requires |x| == |u[0]| && IsSolution(u, x)
    requires forall j :: |u| <= j < |x| ==> x[j] == 1.0
    ensures x == BackSubst(u).value
  {
    var r := BackSubst(u).value;
    BackSubstSolves(u);
    var k := |u|;
    while k > 0
      invariant 0 <= k <= |u|
      invariant x[k..] == r[k..]
      decreases k
    {
      k := k - 1;
      AgreeFrom(u[k], x, r, k);
    }
    assert x == x[0..] && r == r[0..];
  }
}

=== FILE: balancer.dfy ===
/** The stages composed: what a solution of the conservation matrix means for
    the equation, and what the coefficients the balancer returns satisfy. */
module Balancer {
  import opened Wrappers
  import opened Linear
  import opened MatrixBuilder
  import opened Elimination
  import opened BackSubstitution
  import opened Scaling

  /** The integer matrix with its entries read as numbers (Python promotes
      them to floats at the first division). */
  function ToRealMatrix(m: IntMatrix): (r: Matrix)
    ensures |r| == |m| && forall i :: 0 <= i < |m| ==> |r[i]| == |m[i]|
    ensures forall i, j :: 0 <= i < |m| && 0 <= j < |m[i]| ==> r[i][j] == m[i][j] as real
  {
    seq(|m|, i requires 0 <= i < |m| => seq(|m[i]|, j requires 0 <= j < |m[i]| => m[i][j] as real))
  }

  function ToRealVector(v: seq<int>): (r: Vector)
    ensures |r| == |v| && forall i :: 0 <= i < |v| ==> r[i] == v[i] as real
  {
    seq(|v|, i requires 0 <= i < |v| => v[i] as real)
  }

  /** The counts of every molecule for one element can be read. */
  predicate ReadableFor(molecules: seq<seq<string>>, element: string) {
    forall i :: 0 <= i < |molecules| ==> AtomCount(molecules[i], element).Success?
  }

  /** The number of atoms of `element` in each molecule. */
  function Counts(molecules: seq<seq<string>>, element: string): (r: Vector)
    requires ReadableFor(molecules, element)
    ensures |r| == |molecules|
    ensures forall i :: 0 <= i < |molecules| ==> r[i] == AtomCount(molecules[i], element).value as real
  {
    seq(|molecules|, i requires 0 <= i < |molecules| => AtomCount(molecules[i], element).value as real)
  }

  /** With coefficients `c`, the left-hand side carries as many atoms of
      `element` as the right-hand side. */
  predicate Conserved(left: seq<seq<string>>, right: seq<seq<string>>, element: string, c: Vector)
    requires ReadableFor(left, element) && ReadableFor(right, element)
    requires |c| == |left| + |right|
  {
    Dot(Counts(left, element), c[..|left|]) == Dot(Counts(right, element), c[|left|..])
  }

  lemma ReadableSides(left: seq<seq<string>>, right: seq<seq<string>>, elements: seq<string>, e: nat)
    requires Readable(left + right, elements) && e < |elements|
    ensures ReadableFor(left, elements[e]) && ReadableFor(right, elements[e])
  {
    assert forall i :: 0 <= i < |left| ==> (left + right)[i] == left[i];
    assert forall i :: 0 <= i < |right| ==> (left + right)[|left| + i] == right[i];
  }

  /** Row `e` of the matrix applied to `c` is the atoms of element `e` on the
      left minus those on the right. */
  lemma RowMeaning(left: seq<seq<string>>, right: seq<seq<string>>, elements: seq<string>, e: nat, c: Vector)
    requires CreateMatrix(left, right, elements).Success?
    requires e < |elements| && |c| == |left| + |right|
    ensures ReadableFor(left, elements[e]) && ReadableFor(right, elements[e])
    ensures Dot(ToRealMatrix(CreateMatrix(left, right, elements).value)[e], c)
         == Dot(Counts(left, elements[e]), c[..|left|]) - Dot(Counts(right, elements[e]), c[|left|..])
  {
    ReadableSides(left, right, elements, e);
    LeftColumns(left, right, elements, e);
    RightColumns(left, right, elements, e);
    SplitRow(ToRealMatrix(CreateMatrix(left, right, elements).value)[e],
      Counts(left, elements[e]), Counts(right, elements[e]), c);
  }

  /** The left-hand columns of row `e` are the counts on the left. */
  lemma LeftColumns(left: seq<seq<string>>, right: seq<seq<string>>, elements: seq<string>, e: nat)
    requires CreateMatrix(left, right, elements).Success?
    requires e < |elements|
    requires ReadableFor(left, elements[e])
    ensures |ToRealMatrix(CreateMatrix(left, right, elements).value)[e]| == |left| + |right|
    ensures ToRealMatrix(CreateMatrix(left, right, elements).value)[e][..|left|] == Counts(left, elements[e])
  {
  }

  /** The right-hand columns of row `e` are the negated counts on the right. */
  lemma RightColumns(left: seq<seq<string>>, right: seq<seq<string>>, elements: seq<string>, e: nat)
    requires CreateMatrix(left, right, elements).Success?
    requires e < |elements|
    requires ReadableFor(right, elements[e])
    ensures |ToRealMatrix(CreateMatrix(left, right, elements).value)[e]| == |left| + |right|
    ensures ToRealMatrix(CreateMatrix(left, right, elements).value)[e][|left|..] == Negate(Counts(right, elements[e]))
  {
  }

  /** A row made of `l` and the negation of `r` measures `l` against `r`. */
  lemma SplitRow(row: Vector, l: Vector, r: Vector, c: Vector)
    requires |row| == |c| == |l| + |r|
    requires row[..|l|] == l && row[|l|..] == Negate(r)
    ensures Dot(row, c) == Dot(l, c[..|l|]) - Dot(r, c[|l|..])
  {
    DotSplit(row, c, |l|);
    DotNegate(r, c[|l|..]);
  }

  /** A vector solves the conservation matrix exactly when, with its entries
      as coefficients, every element has as many atoms on the left as on the
      right. */
  lemma SolutionConserves(left: seq<seq<string>>, right: seq<seq<string>>, elements: seq<string>, c: Vector)
    requires CreateMatrix(left, right, elements).Success?
    requires |c| == |left| + |right|
    ensures forall e :: 0 <= e < |elements| ==>
      ReadableFor(left, elements[e]) && ReadableFor(right, elements[e])
    ensures IsSolution(ToRealMatrix(CreateMatrix(left, right, elements).value), c) <==>
      forall e :: 0 <= e < |elements| ==> Conserved(left, right, elements[e], c)
  {
    var m := ToRealMatrix(CreateMatrix(left, right, elements).value);
    forall e | 0 <= e < |elements|
      ensures ReadableFor(left, elements[e]) && ReadableFor(right, elements[e])
      ensures Dot(m[e], c) == 0.0 <==> Conserved(left, right, elements[e], c)
    {
      RowMeaning(left, right, elements, e, c);
    }
  }

  /** Coefficients that are the roots scaled by a common factor solve the
      system the roots solve. */
  lemma ScaledSolves(u: Matrix, roots: Vector, coeffs: seq<int>, l: real)
    requires Rect(u, |roots|) && IsSolution(u, roots) && |coeffs| == |roots|
    requires forall i :: 0 <= i < |roots| ==> coeffs[i] as real == l * roots[i]
    ensures IsSolution(u, ToRealVector(coeffs))
  {
    var c := ToRealVector(coeffs);
    forall i | 0 <= i < |u| ensures Dot(u[i], c) == 0.0 {
      DotScale(u[i], roots, c, l);
    }
  }

  /** The balanced coefficients are the roots the fractions stand for, scaled
      by the common denominator. */
  lemma CoefficientsScaleRoots(fs: seq<Fraction>, roots: Vector, coeffs: seq<int>, l: int)
    requires PositiveDenominators(fs) && |fs| == |roots|
    requires forall i :: 0 <= i < |fs| ==> ToReal(fs[i]) == roots[i]
    requires ScaledBy(fs, coeffs, l)
    ensures |coeffs| == |roots|
    ensures forall i :: 0 <= i < |roots| ==> coeffs[i] as real == l as real * roots[i]
  {
    forall i | 0 <= i < |roots| ensures coeffs[i] as real == l as real * roots[i] {
      Substitute(coeffs[i] as real, ToReal(fs[i]), l as real, roots[i]);
    }
  }

  lemma Substitute(c: real, q: real, l: real, x: real)
    requires c == q * l && q == x
    ensures c == l * x
  {
  }

  /** Back substitution followed by scaling: when the fractions are the roots
      of an upper triangular system, the whole coefficients solve it. */
  lemma CoefficientsSolve(u: Matrix, fs: seq<Fraction>, coeffs: seq<int>, l: int)
    requires |u| > 0 && Rect(u, |u[0]|) && UpperTriangular(u)
    requires BackSubst(u).Success?
    requires PositiveDenominators(fs) && |fs| == |BackSubst(u).value|
    requires forall i :: 0 <= i < |fs| ==> ToReal(fs[i]) == BackSubst(u).value[i]
    requires ScaledBy(fs, coeffs, l)
    ensures IsSolution(u, ToRealVector(coeffs))
  {
    var roots := BackSubst(u).value;
    BackSubstSolves(u);
    CoefficientsScaleRoots(fs, roots, coeffs, l);
    ScaledSolves(u, roots, coeffs, l as real);
  }

  /** The stages as the source chains them, with the checked elimination:
      when the elimination, the back substitution and the scaling succeed and
      the fractions are the roots, the whole coefficients solve the original
      system. */
  lemma CheckedPipelineSolves(m: Matrix, fs: seq<Fraction>)
    requires |m| > 0 && Rect(m, |m[0]|)
    requires GaussChecked(m).Success?
    requires BackSubst(GaussChecked(m).value).Success?
    requires WellFormed(fs) && |fs| == |BackSubst(GaussChecked(m).value).value|
    requires forall i :: 0 <= i < |fs| ==> ToReal(fs[i]) == BackSubst(GaussChecked(m).value).value[i]
    requires BalanceCoefficients(fs).Success?
    ensures IsSolution(m, ToRealVector(BalanceCoefficients(fs).value))
  {
    CoefficientsSolve(GaussChecked(m).value, fs, BalanceCoefficients(fs).value, CommonDenominator(fs).value);
    GaussCheckedSolutions(m, ToRealVector(BalanceCoefficients(fs).value));
  }

  /** With the elimination as written, the coefficients are only guaranteed
      to solve the reduced system (`HydrogenToOxygen` shows the original may
      not be solved). */
  lemma PipelineSolvesReduced(m: Matrix, fs: seq<Fraction>)
    requires |m| > 0 && Rect(m, |m[0]|)
    requires Gauss(m).Success?
    requires BackSubst(Gauss(m).value).Success?
    requires WellFormed(fs) && |fs| == |BackSubst(Gauss(m).value).value|
    requires forall i :: 0 <= i < |fs| ==> ToReal(fs[i]) == BackSubst(Gauss(m).value).value[i]
    requires BalanceCoefficients(fs).Success?
    ensures IsSolution(Gauss(m).value, ToRealVector(BalanceCoefficients(fs).value))
  {
    CoefficientsSolve(Gauss(m).value, fs, BalanceCoefficients(fs).value, CommonDenominator(fs).value);
  }

  /** Back substitution fixes the last unknown of a system with fewer rows
      than columns to 1, so the reduced fractions of its roots include `1/1`
      and the whole coefficients share no factor greater than 1. */
  lemma CoefficientsCoprime(u: Matrix, fs: seq<Fraction>, g: int)
    requires |u| > 0 && Rect(u, |u[0]|) && |u| < |u[0]|
    requires BackSubst(u).Success?
    requires WellFormed(fs) && |fs| == |BackSubst(u).value|
    requires forall i :: 0 <= i < |fs| ==> ToReal(fs[i]) == BackSubst(u).value[i]
    requires BalanceCoefficients(fs).Success?
    requires g > 0 && forall i :: 0 <= i < |fs| ==> Divides(g, BalanceCoefficients(fs).value[i])
    ensures g == 1
  {
    var last := |u[0]| - 1;
    assert BackSubst(u).value[last] == 1.0;
    assert Reduced(fs[last]);
    ReducedOne(fs[last]);
    BalancedCoprime(fs, last, g);
  }

  /** Through the checked elimination, the whole coefficients the balancer
      returns have no common factor greater than 1: they are the smallest
      whole numbers in the proportion of the roots. */
  lemma CheckedPipelineCoprime(m: Matrix, fs: seq<Fraction>, g: int)
    requires |m| > 0 && Rect(m, |m[0]|)
    requires GaussChecked(m).Success?
    requires BackSubst(GaussChecked(m).value).Success?
    requires WellFormed(fs) && |fs| == |BackSubst(GaussChecked(m).value).value|
    requires forall i :: 0 <= i < |fs| ==> ToReal(fs[i]) == BackSubst(GaussChecked(m).value).value[i]
    requires BalanceCoefficients(fs).Success?
    requires g > 0 && forall i :: 0 <= i < |fs| ==> Divides(g, BalanceCoefficients(fs).value[i])
    ensures g == 1
  {
    CoefficientsCoprime(GaussChecked(m).value, fs, g);
  }

  /** End to end: coefficients produced from the conservation matrix of an
      equation through the checked elimination conserve every element. */
  lemma CoefficientsConserveAtoms(left: seq<seq<string>>, right: seq<seq<string>>, elements: seq<string>, fs: seq<Fraction>)
    requires CreateMatrix(left, right, elements).Success?
    requires |elements| > 0 && |left| + |right| > 0
    requires var m := ToRealMatrix(CreateMatrix(left, right, elements).value);
      && GaussChecked(m).Success?
      && BackSubst(GaussChecked(m).value).Success?
      && WellFormed(fs) && |fs| == |BackSubst(GaussChecked(m).value).value|
      && (forall i :: 0 <= i < |fs| ==> ToReal(fs[i]) == BackSubst(GaussChecked(m).value).value[i])
      && BalanceCoefficients(fs).Success?
    ensures |BalanceCoefficients(fs).value| == |left| + |right|
    ensures forall e :: 0 <= e < |elements| ==>
      ReadableFor(left, elements[e]) && ReadableFor(right, elements[e])
    ensures var c := ToRealVector(BalanceCoefficients(fs).value);
      forall e :: 0 <= e < |elements| ==> Conserved(left, right, elements[e], c)
  {
    var m := ToRealMatrix(CreateMatrix(left, right, elements).value);
    assert Rect(m, |m[0]|);
    CheckedPipelineSolves(m, fs);
    SolutionConserves(left, right, elements, ToRealVector(BalanceCoefficients(fs).value));
  }
}

=== FILE: gauss.dfy ===
/** Gaussian elimination as `pivot` and `gauss` perform it (scripts/app.py
    lines 98-134): rows are processed top to bottom, a zero on the diagonal is
    replaced by swapping in the first row below with a nonzero entry in that
    column, every lower row gets a multiple of the pivot row added so that its
    entry in the pivot column vanishes, and finally rows are dropped from the
    bottom until there are fewer rows than columns. */
module Elimination {
  import opened Wrappers
  import opened Linear

  /** Every row has an entry in column `k`. */
  predicate HasColumn(m: Matrix, k: nat) {
    forall s :: 0 <= s < |m| ==> k < |m[s]|
  }

  /** The entries left of the diagonal vanish in the first `row` columns. */
  predicate LowerZero(m: Matrix, row: nat) {
    forall i, c :: 0 <= c < row && c < i < |m| && c < |m[i]| ==> m[i][c] == 0.0
  }

  /** Every entry left of the diagonal is zero. */
  predicate UpperTriangular(m: Matrix) {
    forall i, c :: 0 <= c < i < |m| && c < |m[i]| ==> m[i][c] == 0.0
  }

  /** The diagonal entries of the first `row` rows, the last row excepted, are nonzero. */
  predicate DiagBefore(m: Matrix, row: nat) {
    forall i :: 0 <= i < row && i < |m| - 1 && i < |m[i]| ==> m[i][i] != 0.0
  }

  /** Every entry of the row is zero. */
  predicate IsZeroRow(v: Vector) {
    forall c :: 0 <= c < |v| ==> v[c] == 0.0
  }

  // ---------------------------------------------------------------------------
  // pivot
  // ---------------------------------------------------------------------------

  /** The scan of lines 100-102: the first row from `i` on whose entry in
      column `k` is nonzero, or the number of rows when there is none. */
  function FirstNonzeroBelow(m: Matrix, k: nat, i: nat): (t: nat)
    requires i <= |m| && HasColumn(m, k)
    ensures i <= t <= |m|
    ensures forall s :: i <= s < t ==> m[s][k] == 0.0
    ensures t < |m| ==> m[t][k] != 0.0
    decreases |m| - i
  {
    if i < |m| && m[i][k] == 0.0 then FirstNonzeroBelow(m, k, i + 1) else i
  }

  /** `p` is `m` with row `k` exchanged for row `i`, the first row below `k`
      with a nonzero entry in column `k`. */
  predicate IsPivotSwap(m: Matrix, k: nat, i: nat, p: Matrix)
    requires HasColumn(m, k)
  {
    && k < i < |m| && m[i][k] != 0.0
    && (forall t :: k < t < i ==> m[t][k] == 0.0)
    && |p| == |m| && p[k] == m[i] && p[i] == m[k]
    && (forall t :: 0 <= t < |m| && t != k && t != i ==> p[t] == m[t])
  }

  /** `pivot(matrix, k)`: `None` (the source's `False`) exactly when no row
      below `k` has a nonzero entry in column `k`; otherwise the matrix with
      row `k` swapped for the first such row, which puts a nonzero entry on
      the diagonal and leaves every other row where it was. */
  function Pivot(m: Matrix, k: nat): (r: Option<Matrix>)
    requires k < |m| && HasColumn(m, k)
    ensures r.None? <==> forall t :: k < t < |m| ==> m[t][k] == 0.0
    ensures r.Some? ==> exists i: nat :: IsPivotSwap(m, k, i, r.value)
    ensures r.Some? ==> |r.value| == |m| && HasColumn(r.value, k) && r.value[k][k] != 0.0
  {
    var i := FirstNonzeroBelow(m, k, k + 1);
    if i == |m| then None
    else
      var p := m[k := m[i]][i := m[k]];
      assert IsPivotSwap(m, k, i, p);
      Some(p)
  }

  /** A row swap keeps the shape, the rows above `row`, the zeros left of the
      diagonal and the nonzero diagonal entries found so far. */
  lemma PivotKeepsShape(m: Matrix, w: nat, row: nat, p: Matrix)
    requires Rect(m, w) && row < |m| && row < w
    requires Pivot(m, row) == Some(p)
    requires LowerZero(m, row) && DiagBefore(m, row)
    ensures Rect(p, w) && |p| == |m| && p[row][row] != 0.0
    ensures forall t :: 0 <= t < row ==> p[t] == m[t]
    ensures LowerZero(p, row) && DiagBefore(p, row)
  {
    var i: nat :| IsPivotSwap(m, row, i, p);
    forall t | 0 <= t < |p| ensures |p[t]| == w {
      if t == row { assert p[t] == m[i]; } else if t == i { assert p[t] == m[row]; }
    }
  }

  /** Exchanging two equations changes no solution. */
  lemma PivotSolutions(m: Matrix, row: nat, p: Matrix, x: Vector)
    requires row < |m| && HasColumn(m, row)
    requires Pivot(m, row) == Some(p)
    ensures IsSolution(m, x) <==> IsSolution(p, x)
  {
    var i: nat :| IsPivotSwap(m, row, i, p);
    if IsSolution(m, x) {
      forall t | 0 <= t < |p| ensures Dot(p[t], x) == 0.0 {
        if t == row { assert p[t] == m[i]; } else if t == i { assert p[t] == m[row]; } else { assert p[t] == m[t]; }
      }
    }
    if IsSolution(p, x) {
      forall t | 0 <= t < |m| ensures Dot(m[t], x) == 0.0 {
        if t == row { assert m[t] == p[i]; } else if t == i { assert m[t] == p[row]; } else { assert m[t] == p[t]; }
      }
    }
  }

  // ---------------------------------------------------------------------------
  // One elimination step
  // ---------------------------------------------------------------------------

  /** Row `t` with `f` times row `p` added from column `from` on (line 127). */
  function AddMultiple(t: Vector, p: Vector, from: nat, f: real): (a: Vector)
    requires |t| == |p|
    ensures |a| == |t|
    ensures forall c :: 0 <= c < from && c < |t| ==> a[c] == t[c]
    ensures forall c :: from <= c < |t| ==> a[c] == t[c] + p[c] * f
  {
    seq(|t|, c requires 0 <= c < |t| => if c < from then t[c] else t[c] + p[c] * f)
  }

  /** Where the pivot row is zero before `from`, the partial addition is a full
      row combination. */
  lemma AddMultipleCombines(t: Vector, p: Vector, from: nat, f: real)
    requires |t| == |p|
    requires forall c :: 0 <= c < from && c < |p| ==> p[c] == 0.0
    ensures IsCombination(AddMultiple(t, p, from, f), t, p, f)
  {
    var a := AddMultiple(t, p, from, f);
    forall c | 0 <= c < |a| ensures a[c] == t[c] + f * p[c] {
      if c < from { assert p[c] == 0.0; }
    }
  }

  /** The factor of line 125 that cancels `below[row]` against `pivot[row]`. */
  function Factor(below: Vector, pivot: Vector, row: nat): real
    requires row < |below| && row < |pivot| && pivot[row] != 0.0
  {
    -below[row] / pivot[row]
  }

  /** Lines 124-127 for one `row`: every lower row gets the multiple of the
      pivot row that clears its entry in column `row`. */
  function EliminateBelow(m: Matrix, w: nat, row: nat): (r: Matrix)
    requires Rect(m, w) && row < |m| && row < w
    requires row == |m| - 1 || m[row][row] != 0.0
    ensures |r| == |m| && Rect(r, w)
    ensures forall j :: 0 <= j <= row ==> r[j] == m[j]
    ensures forall j :: row < j < |m| ==> r[j][row] == 0.0
    ensures forall j, c :: row < j < |m| && 0 <= c < row ==> r[j][c] == m[j][c]
  {
    var r := seq(|m|, j requires 0 <= j < |m| =>
               if j <= row then m[j]
               else AddMultiple(m[j], m[row], row, Factor(m[j], m[row], row)));
    assert forall j :: row < j < |m| ==>
      m[row][row] * Factor(m[j], m[row], row) == -m[j][row];
    r
  }

  /** A lower row after the step is the row before it plus a multiple of the
      pivot row, provided the pivot row is already zero left of the diagonal. */
  lemma LowerRowCombines(m: Matrix, w: nat, row: nat, j: nat)
    requires Rect(m, w) && row < j < |m| && row < w
    requires m[row][row] != 0.0
    requires LowerZero(m, row)
    ensures IsCombination(EliminateBelow(m, w, row)[j], m[j], m[row], Factor(m[j], m[row], row))
  {
    AddMultipleCombines(m[j], m[row], row, Factor(m[j], m[row], row));
  }

  /** A lower row still holds after the step when it and the pivot row held before. */
  lemma LowerRowKeeps(m: Matrix, w: nat, row: nat, j: nat, x: Vector)
    requires Rect(m, w) && row < j < |m| && row < w && |x| == w
    requires m[row][row] != 0.0 && LowerZero(m, row)
    requires Dot(m[j], x) == 0.0 && Dot(m[row], x) == 0.0
    ensures Dot(EliminateBelow(m, w, row)[j], x) == 0.0
  {
    LowerRowCombines(m, w, row, j);
    DotCombinationSolved(EliminateBelow(m, w, row)[j], m[j], m[row], Factor(m[j], m[row], row), x);
  }

  /** A lower row held before the step when it holds after and the pivot row holds. */
  lemma LowerRowRestores(m: Matrix, w: nat, row: nat, j: nat, x: Vector)
    requires Rect(m, w) && row < j < |m| && row < w && |x| == w
    requires m[row][row] != 0.0 && LowerZero(m, row)
    requires Dot(EliminateBelow(m, w, row)[j], x) == 0.0 && Dot(m[row], x) == 0.0
    ensures Dot(m[j], x) == 0.0
  {
    var n := EliminateBelow(m, w, row)[j];
    var f := Factor(m[j], m[row], row);
    LowerRowCombines(m, w, row, j);
    CombinationReverses(n, m[j], m[row], f);
    DotCombinationSolved(m[j], n, m[row], -f, x);
  }

  /** A step of elimination keeps the solutions and adds none, provided the
      pivot row is already zero left of the diagonal. */
  lemma EliminateBelowSolutions(m: Matrix, w: nat, row: nat, x: Vector)
    requires Rect(m, w) && row < |m| && row < w
    requires row == |m| - 1 || m[row][row] != 0.0
    requires LowerZero(m, row) && |x| == w
    ensures IsSolution(m, x) <==> IsSolution(EliminateBelow(m, w, row), x)
  {
    var r := EliminateBelow(m, w, row);
    if IsSolution(m, x) {
      forall j | 0 <= j < |r| ensures Dot(r[j], x) == 0.0 {
        if j <= row {
          assert r[j] == m[j];
        } else {
          LowerRowKeeps(m, w, row, j, x);
        }
      }
    }
    if IsSolution(r, x) {
      assert Dot(m[row], x) == 0.0 by { assert r[row] == m[row]; }
      forall j | 0 <= j < |m| ensures Dot(m[j], x) == 0.0 {
        if j <= row {
          assert r[j] == m[j];
        } else {
          LowerRowRestores(m, w, row, j, x);
        }
      }
    }
  }

  // ---------------------------------------------------------------------------
  // The elimination loop
  // ---------------------------------------------------------------------------

  /** Lines 119-122 at `row`: a zero on the diagonal above the last row calls
      for a pivot, and a failed pivot ends the elimination (the source
      returns `False`). */
  function PivotStep(m: Matrix, w: nat, row: nat): (r: Checked<Matrix>)
    requires Rect(m, w) && row < |m| && row < w
    ensures r.Failure? <==>
      m[row][row] == 0.0 && row != |m| - 1 && forall t :: row < t < |m| ==> m[t][row] == 0.0
    ensures r.Failure? ==> r.error == NoPivot
    ensures r.Success? ==>
      |r.value| == |m| && HasColumn(r.value, row) && (row == |m| - 1 || r.value[row][row] != 0.0)
  {
    if m[row][row] == 0.0 && row != |m| - 1 then
      match Pivot(m, row)
      case None => Failure(NoPivot)
      case Some(p) => Success(p)
    else Success(m)
  }

  /** The pivot step keeps the shape, the rows above `row`, the zeros left of
      the diagonal, the nonzero diagonal entries found so far, and the
      solutions of the system. */
  lemma PivotStepKeeps(m: Matrix, w: nat, row: nat, x: Vector)
    requires Rect(m, w) && row < |m| && row < w
    requires LowerZero(m, row) && DiagBefore(m, row)
    requires PivotStep(m, w, row).Success?
    ensures var p := PivotStep(m, w, row).value;
      && Rect(p, w) && LowerZero(p, row) && DiagBefore(p, row)
      && (forall t :: 0 <= t < row ==> p[t] == m[t])
      && (IsSolution(m, x) <==> IsSolution(p, x))
  {
    if m[row][row] == 0.0 && row != |m| - 1 {
      var p := PivotStep(m, w, row).value;
      PivotKeepsShape(m, w, row, p);
      PivotSolutions(m, row, p, x);
    }
  }

  /** After the step at `row` the zeros left of the diagonal reach column
      `row` and the diagonal entry of `row` is nonzero unless it is the last. */
  lemma StepKeeps(p: Matrix, w: nat, row: nat)
    requires Rect(p, w) && row < |p| && row < w
    requires row == |p| - 1 || p[row][row] != 0.0
    requires LowerZero(p, row) && DiagBefore(p, row)
    ensures LowerZero(EliminateBelow(p, w, row), row + 1)
    ensures DiagBefore(EliminateBelow(p, w, row), row + 1)
  {
    var n := EliminateBelow(p, w, row);
    forall i | 0 <= i < row + 1 && i < |n| - 1 ensures n[i][i] != 0.0 {
      assert n[i] == p[i];
    }
  }

  /** The row loop of lines 117-127 from `row` on. Reading the diagonal entry
      of a row past the last column is an index error. The result is upper
      triangular with a nonzero diagonal above its last row. */
  function Eliminate(m: Matrix, w: nat, row: nat): (r: Checked<Matrix>)
    requires Rect(m, w) && row <= |m| && row <= w
    requires LowerZero(m, row) && DiagBefore(m, row)
    ensures r.Success? ==>
      && |m| <= w && |r.value| == |m| && Rect(r.value, w)
      && UpperTriangular(r.value)
      && forall i :: 0 <= i < |m| - 1 ==> r.value[i][i] != 0.0
    ensures r.Failure? ==> r.error == NoPivot || (r.error == IndexError && |m| > w)
    ensures |m| > w ==> r.Failure?
    decreases |m| - row
  {
    if row == |m| then Success(m)
    else if row >= w then Failure(IndexError)
    else
      var p :- PivotStep(m, w, row);
      PivotStepKeeps(m, w, row, []);
      StepKeeps(p, w, row);
      Eliminate(EliminateBelow(p, w, row), w, row + 1)
  }

  /** The elimination keeps exactly the solutions of the system. */
  lemma {:induction false} EliminateSolutions(m: Matrix, w: nat, row: nat, x: Vector)
    requires Rect(m, w) && row <= |m| && row <= w
    requires LowerZero(m, row) && DiagBefore(m, row)
    requires Eliminate(m, w, row).Success? && |x| == w
    ensures IsSolution(m, x) <==> IsSolution(Eliminate(m, w, row).value, x)
    decreases |m| - row
  {
    if row < |m| {
      var n := EliminateStep(m, w, row, x);
      EliminateSolutions(n, w, row + 1, x);
    }
  }

  /** One round of the row loop: the matrix it leaves is where the rest of
      the elimination continues, and it has the same solutions. */
  lemma EliminateStep(m: Matrix, w: nat, row: nat, x: Vector) returns (n: Matrix)
    requires Rect(m, w) && row < |m| && row <= w
    requires LowerZero(m, row) && DiagBefore(m, row)
    requires Eliminate(m, w, row).Success? && |x| == w
    ensures Rect(n, w) && row + 1 <= |n| && row + 1 <= w
    ensures LowerZero(n, row + 1) && DiagBefore(n, row + 1)
    ensures Eliminate(n, w, row + 1) == Eliminate(m, w, row)
    ensures IsSolution(m, x) <==> IsSolution(n, x)
  {
    var p := PivotStep(m, w, row).value;
    PivotStepKeeps(m, w, row, x);
    StepKeeps(p, w, row);
    EliminateBelowSolutions(p, w, row, x);
    n := EliminateBelow(p, w, row);
  }

  // ---------------------------------------------------------------------------
  // gauss
  // ---------------------------------------------------------------------------

  /** Lines 130-132: rows are removed from the bottom while there are at
      least as many rows as columns. */
  function DropTrailing(u: Matrix, w: nat): (r: Matrix)
    requires w > 0
    ensures |r| < w && |r| <= |u| && r == u[..|r|]
    ensures |r| == if |u| < w then |u| else w - 1
    decreases |u|
  {
    if |u| >= w then DropTrailing(u[..|u| - 1], w) else u
  }

  /** `gauss(matrix)`: the empty matrix has no first row to measure (an index
      error); otherwise the elimination followed by dropping the bottom rows.
      It fails with `NoPivot` where `pivot` fails and with an index error only
      when there are more equations than unknowns. A result has fewer rows
      than columns, one fewer than the input when the input is square. */
  function Gauss(m: Matrix): (r: Checked<Matrix>)
    requires |m| > 0 ==> Rect(m, |m[0]|)
    ensures r.Success? ==>
      && 0 < |m| <= |m[0]|
      && |r.value| < |m[0]|
      && |r.value| == (if |m| == |m[0]| then |m| - 1 else |m|)
      && Rect(r.value, |m[0]|)
      && UpperTriangular(r.value)
      && (forall i :: 0 <= i < |r.value| - 1 ==> r.value[i][i] != 0.0)
      && (|m| == |m[0]| ==> forall i :: 0 <= i < |r.value| ==> r.value[i][i] != 0.0)
    ensures r.Failure? ==>
      r.error == NoPivot || (r.error == IndexError && (|m| == 0 || |m| > |m[0]|))
    ensures |m| == 0 || |m| > |m[0]| ==> r.Failure?
  {
    if |m| == 0 then Failure(IndexError)
    else
      var w := |m[0]|;
      var u :- Eliminate(m, w, 0);
      var d := DropTrailing(u, w);
      assert forall i :: 0 <= i < |d| ==> d[i] == u[i];
      Success(d)
  }

  /** Every solution of the input solves the result. The converse fails (see
      `HydrogenToOxygen`): the dropped row need not be zero. */
  lemma GaussKeepsSolutions(m: Matrix, x: Vector)
    requires |m| > 0 && Rect(m, |m[0]|)
    requires Gauss(m).Success? && |x| == |m[0]| && IsSolution(m, x)
    ensures IsSolution(Gauss(m).value, x)
  {
    var w := |m[0]|;
    var u := Eliminate(m, w, 0).value;
    EliminateSolutions(m, w, 0, x);
    var d := DropTrailing(u, w);
    assert forall i :: 0 <= i < |d| ==> d[i] == u[i];
  }

  /** `H2 = O2`: the matrix `[[2, 0], [0, -2]]` has only the zero solution,
      yet `gauss` drops its nonzero second row and returns `[[2, 0]]`, which
      `(0, 1)` solves. */
  lemma HydrogenToOxygen()
    ensures Gauss([[2.0, 0.0], [0.0, -2.0]]) == Success([[2.0, 0.0]])
    ensures IsSolution([[2.0, 0.0]], [0.0, 1.0])
    ensures !IsSolution([[2.0, 0.0], [0.0, -2.0]], [0.0, 1.0])
  {
    var m: Matrix := [[2.0, 0.0], [0.0, -2.0]];
    var n := EliminateBelow(m, 2, 0);
    assert n[1] == AddMultiple(m[1], m[0], 0, Factor(m[1], m[0], 0));
    assert n[1] == [0.0, -2.0];
    assert n == m;
    assert Eliminate(m, 2, 0) == Eliminate(m, 2, 1);
    assert EliminateBelow(m, 2, 1) == m;
    assert Eliminate(m, 2, 1) == Success(m);
    assert DropTrailing(m, 2) == [[2.0, 0.0]];
    assert Dot([2.0, 0.0], [0.0, 1.0]) == 0.0;
    assert Dot([0.0, -2.0], [0.0, 1.0]) == -2.0;
    assert Dot(m[1], [0.0, 1.0]) != 0.0;
  }

  /** `gauss` with the check its comment promises: a row may only be dropped
      when it is zero, otherwise the system has no solution with a free
      coefficient and the elimination reports `NonzeroRowDropped`. */
  function GaussChecked(m: Matrix): (r: Checked<Matrix>)
    requires |m| > 0 ==> Rect(m, |m[0]|)
    ensures r.Success? ==>
      && 0 < |m| <= |m[0]|
      && |r.value| < |m[0]|
      && |r.value| == (if |m| == |m[0]| then |m| - 1 else |m|)
      && Rect(r.value, |m[0]|)
      && UpperTriangular(r.value)
      && (forall i :: 0 <= i < |r.value| - 1 ==> r.value[i][i] != 0.0)
      && (|m| == |m[0]| ==> forall i :: 0 <= i < |r.value| ==> r.value[i][i] != 0.0)
    ensures r.Failure? ==>
      || r.error == NoPivot || r.error == NonzeroRowDropped
      || (r.error == IndexError && (|m| == 0 || |m| > |m[0]|))
    ensures |m| == 0 || |m| > |m[0]| ==> r.Failure?
    ensures r == Failure(NonzeroRowDropped) <==>
      && |m| > 0 && Eliminate(m, |m[0]|, 0).Success?
      && |Eliminate(m, |m[0]|, 0).value| == |m[0]|
      && !IsZeroRow(Eliminate(m, |m[0]|, 0).value[|m[0]| - 1])
  {
    if |m| == 0 then Failure(IndexError)
    else
      var w := |m[0]|;
      var u :- Eliminate(m, w, 0);
      if |u| >= w && !IsZeroRow(u[|u| - 1]) then Failure(NonzeroRowDropped)
      else
        var d := DropTrailing(u, w);
        assert forall i :: 0 <= i < |d| ==> d[i] == u[i];
        Success(d)
  }

  /** The checked elimination agrees with `gauss` whenever it succeeds, and
      otherwise fails exactly where `gauss` fails or drops a nonzero row. */
  lemma GaussCheckedRefines(m: Matrix)
    requires |m| > 0 ==> Rect(m, |m[0]|)
    ensures GaussChecked(m).Success? ==> Gauss(m) == GaussChecked(m)
    ensures Gauss(m).Failure? ==> GaussChecked(m) == Gauss(m)
    ensures GaussChecked(m).Failure? && Gauss(m).Success? ==>
      GaussChecked(m).error == NonzeroRowDropped
    ensures Gauss(m).Success? ==>
      (GaussChecked(m).Failure? <==>
         && |Eliminate(m, |m[0]|, 0).value| == |m[0]|
         && !IsZeroRow(Eliminate(m, |m[0]|, 0).value[|m[0]| - 1]))
  {
  }

  /** The checked elimination keeps exactly the solutions of the system. */
  lemma GaussCheckedSolutions(m: Matrix, x: Vector)
    requires |m| > 0 && Rect(m, |m[0]|)
    requires GaussChecked(m).Success? && |x| == |m[0]|
    ensures IsSolution(m, x) <==> IsSolution(GaussChecked(m).value, x)
  {
    var w := |m[0]|;
    var u := Eliminate(m, w, 0).value;
    EliminateSolutions(m, w, 0, x);
    assert GaussChecked(m).value == DropTrailing(u, w);
    DropZeroRow(u, w, x);
  }

  /** Dropping a zero bottom row keeps exactly the solutions. */
  lemma DropZeroRow(u: Matrix, w: nat, x: Vector)
    requires 0 < w && |u| <= w && |x| == w
    requires |u| == w ==> IsZeroRow(u[|u| - 1])
    ensures IsSolution(u, x) <==> IsSolution(DropTrailing(u, w), x)
  {
    var d := DropTrailing(u, w);
    assert forall i :: 0 <= i < |d| ==> d[i] == u[i];
    if |u| == w {
      DotZeros(u[|u| - 1], x);
      if IsSolution(d, x) {
        forall i | 0 <= i < |u| ensures Dot(u[i], x) == 0.0 {
          if i < |d| { assert u[i] == d[i]; }
        }
      }
    } else {
      assert d == u;
    }
  }

  /** A square upper triangular system with no zero on its diagonal has
      only the zero solution: from the bottom row up, each row forces its
      unknown to 0 once the unknowns after it are 0. */
  lemma {:induction false} TriangularOnlyZero(u: Matrix, x: Vector, k: nat)
    requires Rect(u, |x|) && |u| == |x| && k <= |u|
    requires UpperTriangular(u) && forall i :: 0 <= i < |u| ==> u[i][i] != 0.0
    requires IsSolution(u, x)
    ensures forall j :: k <= j < |x| ==> x[j] == 0.0
    decreases |u| - k
  {
    if k < |u| {
      TriangularOnlyZero(u, x, k + 1);
      var a := u[k];
      DotSkipZeros(a, x, k);
      DotAt(a, x, k);
      var y := x[k + 1..];
      DotScale(a[k + 1..], y, y, 0.0);
      NonzeroFactor(a[k], x[k]);
    }
  }

  lemma NonzeroFactor(d: real, v: real)
    requires d != 0.0 && d * v == 0.0
    ensures v == 0.0
  {
  }

  /** When the checked elimination rejects a system for its nonzero dropped
      row, the system has only the zero solution: no choice of coefficients
      balances the equation. */
  lemma RejectedOnlyZero(m: Matrix, x: Vector)
    requires |m| > 0 && Rect(m, |m[0]|) && |x| == |m[0]|
    requires GaussChecked(m) == Failure(NonzeroRowDropped)
    requires IsSolution(m, x)
    ensures forall j :: 0 <= j < |x| ==> x[j] == 0.0
  {
    var w := |m[0]|;
    var u := Eliminate(m, w, 0).value;
    EliminateSolutions(m, w, 0, x);
    SquareOnlyZero(u, x);
  }

  /** A square upper triangular matrix with a nonzero diagonal above its
      last row and a bottom row that is not zero has only the zero solution. */
  lemma SquareOnlyZero(u: Matrix, x: Vector)
    requires |u| == |x| > 0 && Rect(u, |x|) && UpperTriangular(u)
    requires forall i :: 0 <= i < |u| - 1 ==> u[i][i] != 0.0
    requires !IsZeroRow(u[|u| - 1]) && IsSolution(u, x)
    ensures forall j :: 0 <= j < |x| ==> x[j] == 0.0
  {
    LastDiagonal(u);
    TriangularOnlyZero(u, x, 0);
  }

  /** In a square upper triangular matrix, a bottom row that is not zero
      has its nonzero entry on the diagonal. */
  lemma LastDiagonal(u: Matrix)
    requires |u| > 0 && Rect(u, |u|) && UpperTriangular(u)
    requires !IsZeroRow(u[|u| - 1])
    ensures u[|u| - 1][|u| - 1] != 0.0
  {
    var c :| 0 <= c < |u| && u[|u| - 1][c] != 0.0;
  }

  /** `KNO3 = KNO2 + O2`: one row each for K, N and O, one column per molecule. */
  const NitrateMatrix: Matrix := [[1.0, -1.0, 0.0], [1.0, -1.0, 0.0], [3.0, -2.0, -2.0]]
  /** The matrix after the step for row 0: the N row has become zero. */
  const NitrateFirstStep: Matrix := [[1.0, -1.0, 0.0], [0.0, 0.0, 0.0], [0.0, 1.0, -2.0]]
  /** The matrix after the step for row 1: the O row was swapped up. */
  const NitrateEliminated: Matrix := [[1.0, -1.0, 0.0], [0.0, 1.0, -2.0], [0.0, 0.0, 0.0]]

  /** For `KNO3 = KNO2 + O2` the elimination zeroes the N row and swaps the O
      row up in its place; the bottom row it leaves is zero, so the checked
      elimination accepts the equation and drops only that row. */
  lemma PotassiumNitrateChecked()
    ensures Eliminate(NitrateMatrix, 3, 0) == Success(NitrateEliminated)
    ensures GaussChecked(NitrateMatrix) == Success([[1.0, -1.0, 0.0], [0.0, 1.0, -2.0]])
  {
    NitrateRowZero();
    NitrateRowOne();
    NitrateLastRow();
    var n2 := NitrateEliminated;
    assert IsZeroRow(n2[2]);
    assert |NitrateMatrix[0]| == 3;
    assert GaussChecked(NitrateMatrix) == Success(DropTrailing(n2, 3));
    assert DropTrailing(n2, 3) == n2[..2] == [[1.0, -1.0, 0.0], [0.0, 1.0, -2.0]];
  }

  lemma NitrateRowZero()
    ensures Eliminate(NitrateMatrix, 3, 0) == Eliminate(NitrateFirstStep, 3, 1)
  {
    var m := NitrateMatrix;
    assert PivotStep(m, 3, 0) == Success(m);
    var e := EliminateBelow(m, 3, 0);
    assert Factor(m[1], m[0], 0) == -1.0 && Factor(m[2], m[0], 0) == -3.0;
    assert e[1] == AddMultiple(m[1], m[0], 0, -1.0) == [0.0, 0.0, 0.0];
    assert e[2] == AddMultiple(m[2], m[0], 0, -3.0) == [0.0, 1.0, -2.0];
    assert e == NitrateFirstStep;
  }

  lemma NitrateLastRow()
    ensures Eliminate(NitrateEliminated, 3, 2) == Success(NitrateEliminated)
  {
    var n2 := NitrateEliminated;
    assert PivotStep(n2, 3, 2) == Success(n2);
    assert EliminateBelow(n2, 3, 2) == n2;
  }

  lemma NitrateRowOne()
    ensures Eliminate(NitrateFirstStep, 3, 1) == Eliminate(NitrateEliminated, 3, 2)
  {
    var n1, n2 := NitrateFirstStep, NitrateEliminated;
    assert FirstNonzeroBelow(n1, 1, 2) == 2;
    assert n1[1 := n1[2]][2 := n1[1]] == n2;
    assert Pivot(n1, 1) == Some(n2);
    assert PivotStep(n1, 3, 1) == Success(n2);
    var e := EliminateBelow(n2, 3, 1);
    assert Factor(n2[2], n2[1], 1) == 0.0;
    assert e[2] == AddMultiple(n2[2], n2[1], 1, 0.0) == [0.0, 0.0, 0.0];
    assert e == n2;
  }

  /** The corrected elimination rejects `H2 = O2`. */
  lemma HydrogenToOxygenChecked()
    ensures GaussChecked([[2.0, 0.0], [0.0, -2.0]]) == Failure(NonzeroRowDropped)
  {
    var m: Matrix := [[2.0, 0.0], [0.0, -2.0]];
    var n := EliminateBelow(m, 2, 0);
    assert n[1] == AddMultiple(m[1], m[0], 0, Factor(m[1], m[0], 0));
    assert n[1] == [0.0, -2.0];
    assert n == m;
    assert Eliminate(m, 2, 0) == Eliminate(m, 2, 1);
    assert EliminateBelow(m, 2, 1) == m;
    assert Eliminate(m, 2, 1) == Success(m);
    assert m[1][1] != 0.0;
  }
}

=== FILE: linear.dfy ===
/** Real matrices and vectors: the arithmetic the elimination and back
    substitution work in. Python floats are modelled by exact reals. */
module Linear {

  type Vector = seq<real>
  type Matrix = seq<seq<real>>

  /** Every row of `m` has `w` entries. */
  predicate Rect(m: Matrix, w: nat) {
    forall i :: 0 <= i < |m| ==> |m[i]| == w
  }

  /** Σ a[j]·x[j] over the common length. */
  function Dot(a: Vector, x: Vector): real
    decreases |a|
  {
    if |a| == 0 || |x| == 0 then 0.0 else a[0] * x[0] + Dot(a[1..], x[1..])
  }

  /** `x` satisfies every equation `Σ_j m[i][j]·x[j] = 0`. */
  predicate IsSolution(m: Matrix, x: Vector) {
    forall i :: 0 <= i < |m| ==> Dot(m[i], x) == 0.0
  }

  /** `a` is `t + f·p` entry by entry. */
  predicate IsCombination(a: Vector, t: Vector, p: Vector, f: real) {
    |a| == |t| == |p| && forall c :: 0 <= c < |a| ==> a[c] == t[c] + f * p[c]
  }

  /** The dot product is linear in the row. */
  lemma {:induction false} DotCombination(a: Vector, t: Vector, p: Vector, f: real, x: Vector)
    requires IsCombination(a, t, p, f) && |x| == |a|
    ensures Dot(a, x) == Dot(t, x) + f * Dot(p, x)
    decreases |a|
  {
    if |a| > 0 {
      CombinationTail(a, t, p, f);
      DotCombination(a[1..], t[1..], p[1..], f, x[1..]);
      CombineTerms(a[0], t[0], p[0], f, x[0], Dot(a[1..], x[1..]), Dot(t[1..], x[1..]), Dot(p[1..], x[1..]));
    }
  }

  lemma CombinationTail(a: Vector, t: Vector, p: Vector, f: real)
    requires IsCombination(a, t, p, f) && |a| > 0
    ensures IsCombination(a[1..], t[1..], p[1..], f) && a[0] == t[0] + f * p[0]
  {
    assert forall c :: 0 <= c < |a| - 1 ==> a[1..][c] == a[c + 1] && t[1..][c] == t[c + 1] && p[1..][c] == p[c + 1];
  }

  /** One step of `DotCombination`: the head term and the tail sums recombine. */
  lemma CombineTerms(a0: real, t0: real, p0: real, f: real, x0: real, da: real, dt: real, dp: real)
    requires a0 == t0 + f * p0 && da == dt + f * dp
    ensures a0 * x0 + da == (t0 * x0 + dt) + f * (p0 * x0 + dp)
  {
  }

  /** Subtracting the multiple again undoes a row combination. */
  lemma CombinationReverses(a: Vector, t: Vector, p: Vector, f: real)
    requires IsCombination(a, t, p, f)
    ensures IsCombination(t, a, p, -f)
  {
    forall c | 0 <= c < |t| ensures t[c] == a[c] + (-f) * p[c] {
      assert a[c] == t[c] + f * p[c];
    }
  }

  /** The dot product splits at any column. */
  lemma {:induction false} DotSplit(a: Vector, x: Vector, k: nat)
    requires |a| == |x| && k <= |a|
    ensures Dot(a, x) == Dot(a[..k], x[..k]) + Dot(a[k..], x[k..])
    decreases k
  {
    if k > 0 {
      DotSplit(a[1..], x[1..], k - 1);
      assert a[1..][..k - 1] == a[..k][1..] && x[1..][..k - 1] == x[..k][1..];
      assert a[1..][k - 1..] == a[k..] && x[1..][k - 1..] == x[k..];
    }
  }

  /** A row whose entries are all zero contributes nothing. */
  lemma {:induction false} DotZeros(a: Vector, x: Vector)
    requires forall c :: 0 <= c < |a| ==> a[c] == 0.0
    ensures Dot(a, x) == 0.0
    decreases |a|
  {
    if |a| > 0 && |x| > 0 {
      DotZeros(a[1..], x[1..]);
    }
  }

  /** Scaling the vector scales the dot product. */
  lemma {:induction false} DotScale(a: Vector, x: Vector, y: Vector, s: real)
    requires |x| == |y| == |a|
    requires forall c :: 0 <= c < |a| ==> y[c] == s * x[c]
    ensures Dot(a, y) == s * Dot(a, x)
    decreases |a|
  {
    if |a| > 0 {
      DotScale(a[1..], x[1..], y[1..], s);
      assert a[0] * y[0] == s * (a[0] * x[0]);
    }
  }

  /** The row with every entry negated. */
  function Negate(a: Vector): (n: Vector)
    ensures |n| == |a| && forall c :: 0 <= c < |a| ==> n[c] == -a[c]
  {
    seq(|a|, c requires 0 <= c < |a| => -a[c])
  }

  /** Negating the row negates the dot product. */
  lemma {:induction false} DotNegate(a: Vector, x: Vector)
    ensures Dot(Negate(a), x) == -Dot(a, x)
    decreases |a|
  {
    if |a| > 0 && |x| > 0 {
      assert Negate(a)[1..] == Negate(a[1..]);
      DotNegate(a[1..], x[1..]);
    }
  }

  /** Adding a multiple of a row that `x` satisfies keeps the dot product. */
  lemma DotCombinationSolved(a: Vector, t: Vector, p: Vector, f: real, x: Vector)
    requires IsCombination(a, t, p, f) && |x| == |a| && Dot(p, x) == 0.0
    ensures Dot(a, x) == Dot(t, x)
  {
    DotCombination(a, t, p, f, x);
    ZeroProduct(f, Dot(p, x));
  }

  lemma ZeroProduct(f: real, d: real)
    requires d == 0.0
    ensures f * d == 0.0
  {
  }

  /** Leading zero coefficients contribute nothing. */
  lemma DotSkipZeros(a: Vector, x: Vector, i: nat)
    requires |a| == |x| && i <= |a|
    requires forall c :: 0 <= c < i ==> a[c] == 0.0
    ensures Dot(a, x) == Dot(a[i..], x[i..])
  {
    DotSplit(a, x, i);
    DotZeros(a[..i], x[..i]);
  }

  /** The dot product from column `i` is the term of column `i` plus the rest. */
  lemma DotAt(a: Vector, x: Vector, i: nat)
    requires |a| == |x| && i < |a|
    ensures Dot(a[i..], x[i..]) == a[i] * x[i] + Dot(a[i + 1..], x[i + 1..])
  {
    var ta, tx := a[i..], x[i..];
    DotFirst(ta, tx);
    assert ta[0] == a[i] && tx[0] == x[i];
    assert ta[1..] == a[i + 1..] && tx[1..] == x[i + 1..];
  }

  lemma DotFirst(a: Vector, x: Vector)
    requires |a| > 0 && |x| > 0
    ensures Dot(a, x) == a[0] * x[0] + Dot(a[1..], x[1..])
  {
  }
}

=== FILE: matrix_builder.dfy ===
/** The conservation matrix of an equation (`createMatrixOfChemEquation`,
    scripts/app.py lines 59-95): one row per element symbol, one column per
    molecule, left-side molecules first. */
module MatrixBuilder {
  import opened Wrappers
  import opened Text
  import opened PyInt

  /** `item[:len(element)] == element`: the token starts with the symbol. */
  predicate StartsWith(token: string, element: string) {
    |element| <= |token| && token[..|element|] == element
  }

  /** What one token adds to the count of `element` (lines 80-87): its number
      when the token is the symbol followed by a count, 1 when it is the bare
      symbol, nothing when the symbol is only the start of a longer symbol
      (the next character is a lower-case letter) or does not start the token. */
  function Contribution(token: string, element: string): (r: Checked<int>)
    ensures !StartsWith(token, element) ==> r == Success(0)
    ensures r.Failure? ==> r.error == ValueError
  {
    if StartsWith(token, element) then
      if |token| > |element| then
        if IsLower(token[|element|]) then Success(0) else ParseInt(token[|element|..])
      else Success(1)
    else Success(0)
  }

  /** `H2` counts 2 towards `H`: a symbol followed by a run of digits counts
      as the number the digits spell. */
  lemma ContributionOfCount(element: string, digits: string)
    requires |digits| > 0 && forall k :: 0 <= k < |digits| ==> IsDigit(digits[k])
    ensures Contribution(element + digits, element) == Success(DigitsValue(digits) as int)
  {
    var token := element + digits;
    assert token[..|element|] == element;
    assert token[|element|..] == digits;
    assert !IsLower(digits[0]);
    ParseDigits(digits);
  }

  /** `O` counts 1 towards `O`. */
  lemma ContributionOfBareSymbol(element: string)
    ensures Contribution(element, element) == Success(1)
  {
    assert element[..|element|] == element;
  }

  /** `Cl4` counts nothing towards `C`: a lower-case letter after the symbol
      means the token names another element. */
  lemma ContributionOfLongerSymbol(element: string, lower: char, rest: string)
    requires IsLower(lower)
    ensures Contribution(element + [lower] + rest, element) == Success(0)
  {
    var token := element + [lower] + rest;
    assert token[..|element|] == element;
    assert token[|element|] == lower;
  }

  /** The number of atoms of `element` in a molecule: the sum of its tokens'
      contributions, or a value error when one of them has an unreadable count. */
  function AtomCount(tokens: seq<string>, element: string): (r: Checked<int>)
    ensures r.Failure? ==> r.error == ValueError
    decreases |tokens|
  {
    if |tokens| == 0 then Success(0)
    else
      var c :- Contribution(tokens[0], element);
      var rest :- AtomCount(tokens[1..], element);
      Success(c + rest)
  }

  /** The intended matrix entry: the atom count, negated for a molecule on the
      right-hand side so that the system reads `M x = 0` (lines 59-62). */
  function SignedCount(tokens: seq<string>, element: string, onRight: bool): (r: Checked<int>)
    ensures r.Success? <==> AtomCount(tokens, element).Success?
    ensures r.Failure? ==> r.error == ValueError
    ensures r.Success? ==>
      r.value == if onRight then -AtomCount(tokens, element).value else AtomCount(tokens, element).value
  {
    var n :- AtomCount(tokens, element);
    Success(if onRight then -n else n)
  }

  /** The count as lines 77-89 compute it: starting from `count`, each token
      that starts with the symbol adds its contribution and then, for a
      right-hand molecule, the running count is negated, once per such token. */
  function CountAsWritten(tokens: seq<string>, element: string, onRight: bool, count: int): (r: Checked<int>)
    ensures r.Success? <==> AtomCount(tokens, element).Success?
    ensures r.Failure? ==> r.error == ValueError
    decreases |tokens|
  {
    if |tokens| == 0 then Success(count)
    else if StartsWith(tokens[0], element) then
      var c :- Contribution(tokens[0], element);
      var next := count + c;
      CountAsWritten(tokens[1..], element, onRight, if onRight then -next else next)
    else CountAsWritten(tokens[1..], element, onRight, count)
  }

  /** How many tokens of the molecule start with the symbol. */
  function MatchCount(tokens: seq<string>, element: string): nat
    decreases |tokens|
  {
    if |tokens| == 0 then 0
    else (if StartsWith(tokens[0], element) then 1 else 0) + MatchCount(tokens[1..], element)
  }

  /** On the left-hand side nothing is negated, so the loop as written adds
      up the contributions: whatever the tokens, the count is the atom count. */
  lemma {:induction false} LeftCountAsWritten(tokens: seq<string>, element: string, count: int)
    requires AtomCount(tokens, element).Success?
    ensures CountAsWritten(tokens, element, false, count) == Success(count + AtomCount(tokens, element).value)
    decreases |tokens|
  {
    if |tokens| > 0 {
      var c := Contribution(tokens[0], element).value;
      LeftCountAsWritten(tokens[1..], element, count + c);
      if !StartsWith(tokens[0], element) {
        LeftCountAsWritten(tokens[1..], element, count);
      }
    }
  }

  /** A left-hand molecule always gets the intended entry; a right-hand one
      does when at most one token starts with the symbol, so the per-token
      negation happens at most once. */
  lemma CountAsWrittenAgrees(tokens: seq<string>, element: string, onRight: bool)
    requires onRight ==> MatchCount(tokens, element) <= 1
    ensures CountAsWritten(tokens, element, onRight, 0) == SignedCount(tokens, element, onRight)
  {
    if AtomCount(tokens, element).Failure? {
    } else if !onRight {
      LeftCountAsWritten(tokens, element, 0);
    } else if MatchCount(tokens, element) == 0 {
      NoMatchKeepsCount(tokens, element, onRight, 0);
    } else {
      OneMatchCounts(tokens, element, onRight, 0);
    }
  }

  /** No token starts with the symbol: nothing is added and nothing negated. */
  lemma {:induction false} NoMatchKeepsCount(tokens: seq<string>, element: string, onRight: bool, count: int)
    requires MatchCount(tokens, element) == 0
    ensures AtomCount(tokens, element) == Success(0)
    ensures CountAsWritten(tokens, element, onRight, count) == Success(count)
    decreases |tokens|
  {
    if |tokens| > 0 {
      NoMatchKeepsCount(tokens[1..], element, onRight, count);
    }
  }

  /** Exactly one token starts with the symbol: its contribution is added
      and, on the right-hand side, the running count is negated once. */
  lemma {:induction false} OneMatchCounts(tokens: seq<string>, element: string, onRight: bool, count: int)
    requires MatchCount(tokens, element) == 1 && AtomCount(tokens, element).Success?
    ensures var n := AtomCount(tokens, element).value;
      CountAsWritten(tokens, element, onRight, count) == Success(if onRight then -(count + n) else count + n)
    decreases |tokens|
  {
    var tail := tokens[1..];
    var c := Contribution(tokens[0], element);
    assert c.Success? && AtomCount(tail, element).Success?;
    if StartsWith(tokens[0], element) {
      var next := count + c.value;
      NoMatchKeepsCount(tail, element, onRight, if onRight then -next else next);
    } else {
      OneMatchCounts(tail, element, onRight, count);
    }
  }

  /** Carbon tetrachloride on the right-hand side: `CCl4` has the tokens `C`
      and `Cl4`, both starting with `C`; the count is negated twice, giving
      +1 where -1 is meant. */
  lemma CarbonTetrachlorideOnRight()
    ensures CountAsWritten(["C", "Cl4"], "C", true, 0) == Success(1)
    ensures SignedCount(["C", "Cl4"], "C", true) == Success(-1)
  {
    var tokens := ["C", "Cl4"];
    assert StartsWith(tokens[0], "C") && StartsWith(tokens[1], "C");
    assert Contribution("C", "C") == Success(1);
    assert "Cl4"[1] == 'l';
    assert Contribution("Cl4", "C") == Success(0);
    assert tokens[1..] == ["Cl4"];
    assert tokens[1..][1..] == [];
  }

  // ---------------------------------------------------------------------------
  // The matrix
  // ---------------------------------------------------------------------------

  type IntMatrix = seq<seq<int>>

  /** Every count of every molecule can be read for every element. */
  predicate Readable(molecules: seq<seq<string>>, elements: seq<string>) {
    forall e, i :: 0 <= e < |elements| && 0 <= i < |molecules| ==> AtomCount(molecules[i], elements[e]).Success?
  }

  /** The conservation matrix with the intended signs: entry `[e][i]` is the
      number of atoms of element `e` in molecule `i`, negated for right-hand
      molecules; a value error when some count cannot be read. The nested
      loops stop at the first unreadable count, which leaves no matrix either. */
  function CreateMatrix(left: seq<seq<string>>, right: seq<seq<string>>, elements: seq<string>): (r: Checked<IntMatrix>)
    ensures r.Success? <==> Readable(left + right, elements)
    ensures r.Failure? ==> r.error == ValueError
    ensures r.Success? ==>
      && |r.value| == |elements|
      && forall e :: 0 <= e < |elements| ==>
           && |r.value[e]| == |left| + |right|
           && (forall i :: 0 <= i < |left| ==>
                 AtomCount(left[i], elements[e]) == Success(r.value[e][i]))
           && (forall i :: 0 <= i < |right| ==>
                 AtomCount(right[i], elements[e]) == Success(-r.value[e][|left| + i]))
  {
    var molecules := left + right;
    if Readable(molecules, elements) then
      var m := seq(|elements|, e requires 0 <= e < |elements| =>
                 seq(|molecules|, i requires 0 <= i < |molecules| =>
                   SignedCount(molecules[i], elements[e], i >= |left|).value));
      assert forall i :: 0 <= i < |left| ==> molecules[i] == left[i];
      assert forall i :: 0 <= i < |right| ==> molecules[|left| + i] == right[i];
      Success(m)
    else Failure(ValueError)
  }

  /** The matrix as lines 63-95 build it, with the count negated once per
      matching token of a right-hand molecule. */
  function CreateMatrixAsWritten(left: seq<seq<string>>, right: seq<seq<string>>, elements: seq<string>): (r: Checked<IntMatrix>)
    ensures r.Success? <==> Readable(left + right, elements)
    ensures r.Failure? ==> r.error == ValueError
    ensures r.Success? ==>
      && |r.value| == |elements|
      && forall e :: 0 <= e < |elements| ==>
           && |r.value[e]| == |left| + |right|
           && forall i :: 0 <= i < |left| + |right| ==>
                CountAsWritten((left + right)[i], elements[e], i >= |left|, 0) == Success(r.value[e][i])
  {
    var molecules := left + right;
    if Readable(molecules, elements) then
      Success(seq(|elements|, e requires 0 <= e < |elements| =>
                seq(|molecules|, i requires 0 <= i < |molecules| =>
                  CountAsWritten(molecules[i], elements[e], i >= |left|, 0).value)))
    else Failure(ValueError)
  }

  /** When no right-hand molecule has two tokens starting with the same
      symbol, the matrix as written is the intended one; left-hand molecules
      need no such condition. */
  lemma AsWrittenAgrees(left: seq<seq<string>>, right: seq<seq<string>>, elements: seq<string>)
    requires forall i, e :: |left| <= i < |left + right| && 0 <= e < |elements| ==>
               MatchCount((left + right)[i], elements[e]) <= 1
    ensures CreateMatrixAsWritten(left, right, elements) == CreateMatrix(left, right, elements)
  {
    var molecules := left + right;
    forall i, e | 0 <= i < |molecules| && 0 <= e < |elements|
      ensures CountAsWritten(molecules[i], elements[e], i >= |left|, 0)
           == SignedCount(molecules[i], elements[e], i >= |left|)
    {
      CountAsWrittenAgrees(molecules[i], elements[e], i >= |left|);
    }
    var a := CreateMatrixAsWritten(left, right, elements);
    var b := CreateMatrix(left, right, elements);
    if a.Success? {
      forall e | 0 <= e < |elements| ensures a.value[e] == b.value[e] {
        assert forall i :: 0 <= i < |molecules| ==> a.value[e][i] == b.value[e][i];
      }
      assert a.value == b.value;
    }
  }
}

=== FILE: parsing.dfy ===
/** Reading an equation text: its two sides, the element tokens of each molecule,
    and the catalogue of element symbols (scripts/app.py, lines 6-56). */
module Parsing {
  import opened Wrappers
  import opened Text

  // ---------------------------------------------------------------------------
  // Equation sides
  // ---------------------------------------------------------------------------

  /** The molecules of one side: side `true` is the text before the first `=`,
      side `false` the text between the first and the second `=`; each
      `+`-separated piece is stripped of surrounding whitespace. Asking for the
      right side of a text with no `=` is an index error. */
  function GetSide(side: bool, equation: string): (r: Checked<seq<string>>)
    ensures r.Success? <==> side || '=' in equation
    ensures r.Failure? ==> r.error == IndexError
    ensures r.Success? ==> SideOf(Split(equation, '=')[if side then 0 else 1], r.value)
  {
    var fields := Split(equation, '=');
    var index := if side then 0 else 1;
    if index >= |fields| then
      SplitNoSeparator(equation, '=');
      Failure(IndexError)
    else
      assert !side ==> '=' in equation by {
        if !side && '=' !in equation { SplitNoSeparator(equation, '='); }
      }
      StrippedSide(fields[index]);
      Success(StripEach(Split(fields[index], '+')))
  }

  /** `r` holds the `+`-pieces of `field`, one for each, every entry its
      piece trimmed. */
  ghost predicate SideOf(field: string, r: seq<string>) {
    var pieces := Split(field, '+');
    && |r| == |pieces|
    && forall i :: 0 <= i < |r| ==> TrimmedPiece(pieces[i], r[i])
  }

  /** `s` is `piece` with the surrounding whitespace removed (a part of the
      piece with only whitespace around it and none at its own ends), and
      contains neither `+` nor `=`. */
  ghost predicate TrimmedPiece(piece: string, s: string) {
    && s == Strip(piece)
    && (exists k :: StrippedAt(piece, s, k))
    && (|s| == 0 || (!IsSpace(s[0]) && !IsSpace(s[|s| - 1])))
    && '+' !in s && '=' !in s
  }

  /** The stripped pieces of a field without `=` are its side. */
  lemma StrippedSide(field: string)
    requires '=' !in field
    ensures SideOf(field, StripEach(Split(field, '+')))
  {
    var pieces := Split(field, '+');
    var r := StripEach(pieces);
    forall i | 0 <= i < |r| ensures TrimmedPiece(pieces[i], r[i]) {
      StrippedPiece(pieces, i, field);
    }
  }

  /** `[p.strip() for p in pieces]`. */
  function StripEach(pieces: seq<string>): (r: seq<string>)
    ensures |r| == |pieces|
    ensures forall i :: 0 <= i < |r| ==> r[i] == Strip(pieces[i])
  {
    seq(|pieces|, i requires 0 <= i < |pieces| => Strip(pieces[i]))
  }

  /** A stripped `+`-piece of a field without `=` is its piece trimmed. */
  lemma StrippedPiece(pieces: seq<string>, i: nat, field: string)
    requires i < |pieces| && Join(pieces, '+') == field
    requires forall j :: 0 <= j < |pieces| ==> '+' !in pieces[j]
    requires '=' !in field
    ensures TrimmedPiece(pieces[i], Strip(pieces[i]))
  {
    var piece := pieces[i];
    StripTrims(piece);
    var k :| StrippedAt(piece, Strip(piece), k);
    JoinContains(pieces, '+', i);
  }

  /** Every character of a piece is a character of the joined text. */
  lemma {:induction false} JoinContains(parts: seq<string>, sep: char, i: nat)
    requires i < |parts|
    ensures forall c :: c in parts[i] ==> c in Join(parts, sep)
    decreases |parts|
  {
    if i > 0 {
      JoinContains(parts[1..], sep, i - 1);
    }
  }

  /** The text `" a + b + ... "` for the molecules `[a, b, ...]`. */
  function RenderSide(molecules: seq<string>): string {
    Join(seq(|molecules|, i requires 0 <= i < |molecules| => " " + molecules[i] + " "), '+')
  }

  /** A molecule name the splitter can return unchanged. */
  predicate PlainName(p: string) {
    && '+' !in p && '=' !in p
    && (|p| == 0 || (!IsSpace(p[0]) && !IsSpace(p[|p| - 1])))
  }

  /** Writing two molecule lists as `a + b = c + d` and reading the sides back
      gives the two lists. */
  lemma RenderThenGetSides(left: seq<string>, right: seq<string>)
    requires |left| >= 1 && |right| >= 1
    requires forall i :: 0 <= i < |left| ==> PlainName(left[i])
    requires forall i :: 0 <= i < |right| ==> PlainName(right[i])
    ensures GetSide(true, RenderSide(left) + "=" + RenderSide(right)) == Success(left)
    ensures GetSide(false, RenderSide(left) + "=" + RenderSide(right)) == Success(right)
  {
    var l := RenderSide(left);
    var rt := RenderSide(right);
    RenderedPieces(left);
    RenderedPieces(right);
    SplitJoin([l, rt], '=');
    assert Join([l, rt], '=') == l + "=" + rt;
    StripsBack(left);
    StripsBack(right);
    assert StripEach(Split(l, '+')) == left;
    assert StripEach(Split(rt, '+')) == right;
  }

  /** The rendered side has no `=` and splits on `+` into the padded names. */
  lemma RenderedPieces(molecules: seq<string>)
    requires |molecules| >= 1
    requires forall i :: 0 <= i < |molecules| ==> PlainName(molecules[i])
    ensures '=' !in RenderSide(molecules)
    ensures Split(RenderSide(molecules), '+')
         == seq(|molecules|, i requires 0 <= i < |molecules| => " " + molecules[i] + " ")
  {
    var padded := seq(|molecules|, i requires 0 <= i < |molecules| => " " + molecules[i] + " ");
    SplitJoin(padded, '+');
    JoinLacks(padded, '+', '=');
  }

  /** A character found in no piece and differing from the separator is not in the join. */
  lemma {:induction false} JoinLacks(parts: seq<string>, sep: char, c: char)
    requires c != sep
    requires forall i :: 0 <= i < |parts| ==> c !in parts[i]
    ensures c !in Join(parts, sep)
    decreases |parts|
  {
    if |parts| > 1 {
      JoinLacks(parts[1..], sep, c);
    }
  }

  lemma StripsBack(molecules: seq<string>)
    requires forall i :: 0 <= i < |molecules| ==> PlainName(molecules[i])
    ensures forall i :: 0 <= i < |molecules| ==> Strip(" " + molecules[i] + " ") == molecules[i]
  {
    forall i | 0 <= i < |molecules| ensures Strip(" " + molecules[i] + " ") == molecules[i] {
      StripPadded(" ", molecules[i], " ");
    }
  }

  // ---------------------------------------------------------------------------
  // Tokenising a formula
  // ---------------------------------------------------------------------------

  /** No upper-case letter after the first character. */
  predicate NoInnerUpper(t: string) {
    forall k :: 0 < k < |t| ==> !IsUpper(t[k])
  }

  /** `t` cuts `s` into non-empty pieces, each running from an upper-case letter
      (or the start of `s`) up to the next upper-case letter. */
  predicate IsTokenization(s: string, t: seq<string>) {
    && Concat(t) == s
    && (forall i :: 0 <= i < |t| ==> |t[i]| > 0 && NoInnerUpper(t[i]))
    && (forall i :: 0 < i < |t| ==> IsUpper(t[i][0]))
  }

  /** `pieces` cut `s` before every upper-case letter and nowhere else: every
      piece but the first starts with an upper-case letter and has no other. */
  predicate CutsBeforeUpper(s: string, pieces: seq<string>) {
    && |pieces| >= 1 && Concat(pieces) == s
    && (forall i :: 0 <= i < |pieces| ==> NoInnerUpper(pieces[i]))
    && (forall i :: 0 < i < |pieces| ==> |pieces[i]| > 0 && IsUpper(pieces[i][0]))
    && (|pieces[0]| == 0 || !IsUpper(pieces[0][0]))
  }

  /** `re.split(r'(?=[A-Z][a-z]*\d*)', s)`: the lookahead matches exactly before
      each upper-case letter, so `s` is cut before every upper-case letter; a cut
      at the very start leaves an empty first piece. */
  function SplitBeforeUpper(s: string): (pieces: seq<string>)
    ensures CutsBeforeUpper(s, pieces)
    decreases |s|
  {
    if |s| == 0 then [""]
    else
      var rest := SplitBeforeUpper(s[1..]);
      if IsUpper(s[0]) then
        CutAtUpper(s, rest);
        ["", [s[0]] + rest[0]] + rest[1..]
      else
        JoinFirstPiece(s, rest);
        [[s[0]] + rest[0]] + rest[1..]
  }

  /** An upper-case first letter starts a new piece after an empty one. */
  lemma CutAtUpper(s: string, rest: seq<string>)
    requires |s| > 0 && IsUpper(s[0]) && CutsBeforeUpper(s[1..], rest)
    ensures CutsBeforeUpper(s, ["", [s[0]] + rest[0]] + rest[1..])
  {
    var head := [s[0]] + rest[0];
    var pieces := ["", head] + rest[1..];
    assert s == [s[0]] + s[1..];
    assert pieces[1..][1..] == rest[1..];
    assert Concat(rest) == rest[0] + Concat(rest[1..]);
    assert Concat(pieces) == Concat(pieces[1..]);
    assert forall k :: 0 < k < |head| ==> head[k] == rest[0][k - 1];
  }

  /** Any other first character joins the first piece. */
  lemma JoinFirstPiece(s: string, rest: seq<string>)
    requires |s| > 0 && !IsUpper(s[0]) && CutsBeforeUpper(s[1..], rest)
    ensures CutsBeforeUpper(s, [[s[0]] + rest[0]] + rest[1..])
  {
    var head := [s[0]] + rest[0];
    var pieces := [head] + rest[1..];
    assert s == [s[0]] + s[1..];
    assert pieces[1..] == rest[1..];
    assert Concat(rest) == rest[0] + Concat(rest[1..]);
    assert forall k :: 0 < k < |head| ==> head[k] == rest[0][k - 1];
  }

  /** The non-empty strings of a list, in order (`[x for x in xs if x]`). */
  function NonEmpty(xs: seq<string>): (r: seq<string>)
    ensures forall i :: 0 <= i < |r| ==> |r[i]| > 0
    ensures Concat(r) == Concat(xs)
    ensures forall x :: x in r <==> x in xs && |x| > 0
    decreases |xs|
  {
    if |xs| == 0 then []
    else if |xs[0]| == 0 then NonEmpty(xs[1..])
    else
      var r := [xs[0]] + NonEmpty(xs[1..]);
      assert r[1..] == NonEmpty(xs[1..]);
      r
  }

  /** The filter distributes over concatenation: the pieces kept from `xs + ys`
      are those kept from `xs` followed by those kept from `ys`. Together with
      `NonEmptySingle` this fixes the order of the kept pieces. */
  lemma {:induction false} NonEmptyAppend(xs: seq<string>, ys: seq<string>)
    ensures NonEmpty(xs + ys) == NonEmpty(xs) + NonEmpty(ys)
    decreases |xs|
  {
    if |xs| > 0 {
      assert (xs + ys)[0] == xs[0];
      assert (xs + ys)[1..] == xs[1..] + ys;
      NonEmptyAppend(xs[1..], ys);
    } else {
      assert xs + ys == ys;
    }
  }

  /** A single piece is kept exactly when it is non-empty. */
  lemma NonEmptySingle(x: string)
    ensures NonEmpty([x]) == if |x| > 0 then [x] else []
  {
    assert [x][1..] == [];
  }

  /** The tokens of one formula (the comprehension on line 36): `H2SO4` gives
      `H2`, `S`, `O4`. */
  function Tokenize(s: string): (t: seq<string>)
    ensures IsTokenization(s, t)
  {
    var pieces := SplitBeforeUpper(s);
    if |pieces[0]| == 0 then
      assert Concat(pieces) == Concat(pieces[1..]);
      var t := NonEmpty(pieces);
      assert t == NonEmpty(pieces[1..]);
      NonEmptyOfNonEmpty(pieces[1..]);
      t
    else
      NonEmptyOfNonEmpty(pieces);
      pieces
  }

  lemma {:induction false} NonEmptyOfNonEmpty(xs: seq<string>)
    requires forall i :: 0 <= i < |xs| ==> |xs[i]| > 0
    ensures NonEmpty(xs) == xs
    decreases |xs|
  {
    if |xs| > 0 {
      NonEmptyOfNonEmpty(xs[1..]);
    }
  }

  /** A tokenisation is unique: any cut of `s` with the tokenisation properties
      is the one `Tokenize` returns. */
  lemma TokenizeUnique(s: string, t: seq<string>)
    requires IsTokenization(s, t)
    ensures t == Tokenize(s)
  {
    TokenizationsAgree(s, t, Tokenize(s));
  }

  lemma {:induction false} TokenizationsAgree(s: string, t: seq<string>, u: seq<string>)
    requires IsTokenization(s, t) && IsTokenization(s, u)
    ensures t == u
    decreases |s|
  {
    EmptyTokenization(s, t);
    EmptyTokenization(s, u);
    if |s| > 0 {
      FirstTokenEndsAtCut(s, t);
      FirstTokenEndsAtCut(s, u);
      CutUnique(s, |t[0]|, |u[0]|);
      assert t[0] == s[..|t[0]|] == u[0];
      TailTokenization(s, t);
      TailTokenization(s, u);
      TokenizationsAgree(s[|t[0]|..], t[1..], u[1..]);
      assert t == [t[0]] + t[1..] && u == [u[0]] + u[1..];
    }
  }

  /** `n` is where the first token of `s` ends: the first upper-case letter after
      the start, or the end of `s`. */
  predicate CutAt(s: string, n: nat) {
    && 0 < n <= |s|
    && (forall k :: 0 < k < n ==> !IsUpper(s[k]))
    && (n == |s| || IsUpper(s[n]))
  }

  lemma CutUnique(s: string, n: nat, m: nat)
    requires CutAt(s, n) && CutAt(s, m)
    ensures n == m
  {
  }

  lemma EmptyTokenization(s: string, t: seq<string>)
    requires IsTokenization(s, t)
    ensures |t| == 0 <==> |s| == 0
  {
    if |t| > 0 {
      assert Concat(t) == t[0] + Concat(t[1..]);
    }
  }

  lemma FirstTokenEndsAtCut(s: string, t: seq<string>)
    requires IsTokenization(s, t) && |t| > 0
    ensures |t[0]| <= |s| && t[0] == s[..|t[0]|]
    ensures CutAt(s, |t[0]|)
  {
    assert Concat(t) == t[0] + Concat(t[1..]);
    var n := |t[0]|;
    assert forall k :: 0 < k < n ==> s[k] == t[0][k];
    if n < |s| {
      assert |t| > 1;
      assert Concat(t[1..]) == t[1] + Concat(t[2..]);
      assert s[n] == t[1][0];
    }
  }

  lemma TailTokenization(s: string, t: seq<string>)
    requires IsTokenization(s, t) && |t| > 0
    ensures IsTokenization(s[|t[0]|..], t[1..])
  {
    assert Concat(t) == t[0] + Concat(t[1..]);
    assert Concat(t[1..]) == s[|t[0]|..];
  }

  /** Line 36 applied to every molecule of a side (`formatSideOfEquation`). */
  function FormatSide(side: seq<string>): (r: seq<seq<string>>)
    ensures |r| == |side|
    ensures forall i :: 0 <= i < |side| ==> IsTokenization(side[i], r[i])
  {
    seq(|side|, i requires 0 <= i < |side| => Tokenize(side[i]))
  }

  // ---------------------------------------------------------------------------
  // Element catalogue
  // ---------------------------------------------------------------------------

  /** `re.split(r'(?=\d)', token)[0]`: the token up to its first digit. */
  function ElementPrefix(token: string): (r: string)
    ensures |r| <= |token| && r == token[..|r|]
    ensures forall k :: 0 <= k < |r| ==> !IsDigit(r[k])
    ensures |r| == |token| || IsDigit(token[|r|])
    decreases |token|
  {
    if |token| == 0 || IsDigit(token[0]) then ""
    else
      var r := [token[0]] + ElementPrefix(token[1..]);
      assert token == [token[0]] + token[1..];
      r
  }

  /** Index of the first occurrence of `v` in `xs`. */
  function FirstIndex<T(==)>(xs: seq<T>, v: T): (k: nat)
    requires v in xs
    ensures k < |xs| && xs[k] == v && v !in xs[..k]
  {
    if xs[0] == v then 0
    else
      var k := 1 + FirstIndex(xs[1..], v);
      assert xs[..k] == [xs[0]] + xs[1..][..k - 1];
      k
  }

  lemma FirstIndexInPrefix<T>(xs: seq<T>, n: nat, v: T)
    requires n <= |xs| && v in xs[..n]
    ensures v in xs && FirstIndex(xs, v) == FirstIndex(xs[..n], v)
  {
    var k := FirstIndex(xs[..n], v);
    var j := FirstIndex(xs, v);
    assert xs[..n][..k] == xs[..k];
    assert forall i :: 0 <= i < k ==> xs[..k][i] == xs[i];
    assert forall i :: 0 <= i < j ==> xs[..j][i] == xs[i];
  }

  predicate NoDuplicates<T(==)>(xs: seq<T>) {
    forall i, j :: 0 <= i < j < |xs| ==> xs[i] != xs[j]
  }

  /** `r` holds the values of `xs`, each once, ordered by where they first
      occur in `xs`. */
  predicate Deduped<T(==)>(xs: seq<T>, r: seq<T>) {
    && NoDuplicates(r)
    && (forall i :: 0 <= i < |r| ==> r[i] in xs)
    && (forall k :: 0 <= k < |xs| ==> xs[k] in r)
    && (forall i, j :: 0 <= i < j < |r| ==> FirstIndex(xs, r[i]) < FirstIndex(xs, r[j]))
  }

  /** The distinct values of `xs`, each kept at its first occurrence: the
      `if element not in elements: elements.append(element)` loop. */
  function Dedupe<T(==)>(xs: seq<T>): (r: seq<T>)
    ensures Deduped(xs, r)
    decreases |xs|
  {
    if |xs| == 0 then []
    else
      var n := |xs| - 1;
      var d := Dedupe(xs[..n]);
      if xs[n] in d then
        DedupeSkips(xs, d);
        d
      else
        DedupeAppends(xs, d);
        d + [xs[n]]
  }

  /** The values already kept first occur before the last position, where
      they first occur in the prefix too. */
  lemma KeptBefore<T>(xs: seq<T>, d: seq<T>)
    requires |xs| > 0 && Deduped(xs[..|xs| - 1], d)
    ensures forall v :: v in d ==> v in xs && FirstIndex(xs, v) == FirstIndex(xs[..|xs| - 1], v) < |xs| - 1
  {
    var n := |xs| - 1;
    forall v | v in d ensures v in xs && FirstIndex(xs, v) == FirstIndex(xs[..n], v) < n {
      FirstIndexInPrefix(xs, n, v);
    }
  }

  /** A repeated last value leaves the kept values as they are. */
  lemma DedupeSkips<T>(xs: seq<T>, d: seq<T>)
    requires |xs| > 0 && Deduped(xs[..|xs| - 1], d) && xs[|xs| - 1] in d
    ensures Deduped(xs, d)
  {
    var n := |xs| - 1;
    KeptBefore(xs, d);
    forall k | 0 <= k < |xs| ensures xs[k] in d {
      if k < n { assert xs[k] == xs[..n][k]; }
    }
  }

  /** A new last value is kept after the others. */
  lemma DedupeAppends<T>(xs: seq<T>, d: seq<T>)
    requires |xs| > 0 && Deduped(xs[..|xs| - 1], d) && xs[|xs| - 1] !in d
    ensures Deduped(xs, d + [xs[|xs| - 1]])
  {
    var n := |xs| - 1;
    var r := d + [xs[n]];
    KeptBefore(xs, d);
    assert xs == xs[..n] + [xs[n]];
    assert xs[n] !in xs[..n];
    assert FirstIndex(xs, xs[n]) == n;
    assert forall i :: 0 <= i < |d| ==> r[i] == d[i];
    forall k | 0 <= k < |xs| ensures xs[k] in r {
      if k < n { assert xs[k] == xs[..n][k]; }
    }
  }

  /** The element symbols of the equation (`getElementsOfEquation`): the
      digit-free prefixes of all tokens, molecule by molecule, without
      repetition and in order of first appearance. */
  function ElementsOf(equation: seq<seq<string>>): (r: seq<string>)
    ensures NoDuplicates(r)
    ensures forall t :: t in Concat(equation) ==> ElementPrefix(t) in r
    ensures forall e :: e in r ==> exists t :: t in Concat(equation) && e == ElementPrefix(t)
    ensures forall i :: 0 <= i < |r| ==> r[i] in Prefixes(Concat(equation))
    ensures forall i, j :: 0 <= i < j < |r| ==>
              FirstIndex(Prefixes(Concat(equation)), r[i]) < FirstIndex(Prefixes(Concat(equation)), r[j])
  {
    var tokens := Concat(equation);
    var prefixes := Prefixes(tokens);
    assert forall k :: 0 <= k < |tokens| ==> prefixes[k] == ElementPrefix(tokens[k]);
    Dedupe(prefixes)
  }

  /** The digit-free prefix of every token, position by position. */
  function Prefixes(tokens: seq<string>): (r: seq<string>)
    ensures |r| == |tokens|
    ensures forall k :: 0 <= k < |tokens| ==> r[k] == ElementPrefix(tokens[k])
  {
    seq(|tokens|, k requires 0 <= k < |tokens| => ElementPrefix(tokens[k]))
  }
}

=== FILE: pyint.dfy ===
/** Python's `int(text)` in base 10, as the matrix builder applies it to the
    part of a token after an element symbol. */
module PyInt {
  import opened Wrappers
  import opened Text

  /** Digits with single underscores between them, such as `12` or `1_000`. */
  predicate IsDigitGroup(b: string) {
    && |b| > 0 && IsDigit(b[0]) && IsDigit(b[|b| - 1])
    && (forall k :: 0 <= k < |b| ==> IsDigit(b[k]) || b[k] == '_')
    && !HasDoubleUnderscore(b)
  }

  predicate HasDoubleUnderscore(b: string)
    decreases |b|
  {
    |b| >= 2 && ((b[0] == '_' && b[1] == '_') || HasDoubleUnderscore(b[1..]))
  }

  function DigitValue(c: char): nat
    requires IsDigit(c)
  {
    (c as int) - ('0' as int)
  }

  /** The number the digits of `b` spell, underscores skipped. */
  function DigitsValue(b: string): nat
    decreases |b|
  {
    if |b| == 0 then 0
    else if IsDigit(b[|b| - 1]) then DigitsValue(b[..|b| - 1]) * 10 + DigitValue(b[|b| - 1])
    else DigitsValue(b[..|b| - 1])
  }

  /** The whitespace `int()` skips around the number. CPython first turns
      every non-ASCII character `str.isspace` accepts into a space and then
      skips the ASCII tab, line feed, vertical tab, form feed, carriage return
      and space; the separators U+001C to U+001F, which `str.isspace` also
      accepts, are not skipped. */
  predicate IsIntSpace(c: char) {
    IsSpace(c) && !('\U{1C}' <= c <= '\U{1F}')
  }

  /** The leading loop of CPython's `int()`: `int()` whitespace is skipped
      from the front. */
  function TrimFront(s: string): string
    decreases |s|
  {
    if |s| > 0 && IsIntSpace(s[0]) then TrimFront(s[1..]) else s
  }

  /** The trailing loop: `int()` whitespace is dropped from the back. */
  function TrimBack(s: string): string
    decreases |s|
  {
    if |s| > 0 && IsIntSpace(s[|s| - 1]) then TrimBack(s[..|s| - 1]) else s
  }

  /** What skipping leaves is a suffix of the text that does not start with
      `int()` whitespace, and everything skipped was such whitespace. */
  lemma {:induction false} TrimFrontSkips(s: string)
    ensures var t := TrimFront(s);
      && |t| <= |s| && t == s[|s| - |t|..]
      && (forall j :: 0 <= j < |s| - |t| ==> IsIntSpace(s[j]))
      && (|t| > 0 ==> !IsIntSpace(t[0]))
    decreases |s|
  {
    if |s| > 0 && IsIntSpace(s[0]) {
      TrimFrontSkips(s[1..]);
    }
  }

  /** What dropping leaves is a prefix of the text that does not end with
      `int()` whitespace, and everything dropped was such whitespace. */
  lemma {:induction false} TrimBackDrops(s: string)
    ensures var t := TrimBack(s);
      && |t| <= |s| && t == s[..|t|]
      && (forall j :: |t| <= j < |s| ==> IsIntSpace(s[j]))
      && (|t| > 0 ==> !IsIntSpace(t[|t| - 1]))
    decreases |s|
  {
    if |s| > 0 && IsIntSpace(s[|s| - 1]) {
      TrimBackDrops(s[..|s| - 1]);
    }
  }

  /** The text `int()` reads a number from. */
  function TrimIntSpace(s: string): string {
    TrimBack(TrimFront(s))
  }

  /** Skipping stops exactly at the first character that is not `int()`
      whitespace. */
  lemma {:induction false} FrontUnique(s: string, k: nat)
    requires k <= |s| && forall j :: 0 <= j < k ==> IsIntSpace(s[j])
    requires k < |s| ==> !IsIntSpace(s[k])
    ensures TrimFront(s) == s[k..]
    decreases k
  {
    if k > 0 {
      assert s[1..][k - 1..] == s[k..];
      FrontUnique(s[1..], k - 1);
    }
  }

  /** Dropping stops exactly after the last character that is not `int()`
      whitespace. */
  lemma {:induction false} BackUnique(s: string, k: nat)
    requires k <= |s| && forall j :: k <= j < |s| ==> IsIntSpace(s[j])
    requires k > 0 ==> !IsIntSpace(s[k - 1])
    ensures TrimBack(s) == s[..k]
    decreases |s| - k
  {
    if k < |s| {
      assert s[..|s| - 1][..k] == s[..k];
      BackUnique(s[..|s| - 1], k);
    }
  }

  /** Any run of `int()` whitespace around a text without whitespace at its
      ends is exactly what the trimming removes. */
  lemma TrimPadded(a: string, p: string, b: string)
    requires forall j :: 0 <= j < |a| ==> IsIntSpace(a[j])
    requires forall j :: 0 <= j < |b| ==> IsIntSpace(b[j])
    requires |p| > 0 && !IsIntSpace(p[0]) && !IsIntSpace(p[|p| - 1])
    ensures TrimIntSpace(a + p + b) == p
  {
    var r := p + b;
    assert a + p + b == a + r;
    FrontPadded(a, r);
    forall j | |p| <= j < |r| ensures IsIntSpace(r[j]) {
      assert r[j] == b[j - |p|];
    }
    BackUnique(r, |p|);
    assert r[..|p|] == p;
  }

  lemma FrontPadded(a: string, r: string)
    requires forall j :: 0 <= j < |a| ==> IsIntSpace(a[j])
    requires |r| > 0 && !IsIntSpace(r[0])
    ensures TrimFront(a + r) == r
  {
    var s := a + r;
    assert forall j :: 0 <= j < |a| ==> s[j] == a[j];
    assert s[|a|] == r[0];
    FrontUnique(s, |a|);
    assert s[|a|..] == r;
  }

  /** `int(text)`: surrounding whitespace is ignored, one optional sign, then a
      digit group; anything else is a value error. */
  function ParseInt(text: string): (r: Checked<int>)
    ensures r.Failure? ==> r.error == ValueError
  {
    ParseSigned(TrimIntSpace(text))
  }

  /** One optional sign, then a digit group. */
  function ParseSigned(t: string): Checked<int> {
    if |t| > 0 && (t[0] == '+' || t[0] == '-') then
      if IsDigitGroup(t[1..]) then
        var v: int := DigitsValue(t[1..]);
        Success(if t[0] == '-' then -v else v)
      else
        Failure(ValueError)
    else if IsDigitGroup(t) then Success(DigitsValue(t))
    else Failure(ValueError)
  }

  function DigitChar(d: nat): (c: char)
    requires d < 10
    ensures IsDigit(c) && DigitValue(c) == d
  {
    ('0' as int + d) as char
  }

  /** `str(n)` for a natural number. */
  function ShowNat(n: nat): (s: string)
    ensures |s| > 0
    ensures forall k :: 0 <= k < |s| ==> IsDigit(s[k])
    decreases n
  {
    if n < 10 then [DigitChar(n)] else ShowNat(n / 10) + [DigitChar(n % 10)]
  }

  /** `str(n)` for an integer. */
  function Show(n: int): string {
    if n < 0 then "-" + ShowNat(-n) else ShowNat(n)
  }

  lemma {:induction false} ShowNatValue(n: nat)
    ensures DigitsValue(ShowNat(n)) == n
    decreases n
  {
    var s := ShowNat(n);
    if n >= 10 {
      ShowNatValue(n / 10);
      assert s[..|s| - 1] == ShowNat(n / 10);
    }
  }

  /** Text made of digits only has no whitespace to trim. */
  lemma TrimDigits(d: string)
    requires |d| > 0 && forall k :: 0 <= k < |d| ==> IsDigit(d[k])
    ensures TrimIntSpace(d) == d
  {
    assert "" + d + "" == d;
    TrimPadded("", d, "");
  }

  lemma {:induction false} DigitsHaveNoUnderscorePair(d: string)
    requires forall k :: 0 <= k < |d| ==> IsDigit(d[k])
    ensures !HasDoubleUnderscore(d)
    decreases |d|
  {
    if |d| >= 2 {
      DigitsHaveNoUnderscorePair(d[1..]);
    }
  }

  /** A non-empty run of plain digits is read as the decimal number it spells. */
  lemma ParseDigits(d: string)
    requires |d| > 0 && forall k :: 0 <= k < |d| ==> IsDigit(d[k])
    ensures ParseInt(d) == Success(DigitsValue(d))
  {
    TrimDigits(d);
    PlainGroup(d);
  }

  lemma PlainGroup(d: string)
    requires |d| > 0 && forall k :: 0 <= k < |d| ==> IsDigit(d[k])
    ensures ParseSigned(d) == Success(DigitsValue(d))
  {
    DigitsHaveNoUnderscorePair(d);
    assert IsDigitGroup(d);
    assert d[0] != '+' && d[0] != '-';
  }

  /** Digits with `int()` whitespace around them are read as the number the
      digits spell. */
  lemma ParsePadded(a: string, d: string, b: string)
    requires forall j :: 0 <= j < |a| ==> IsIntSpace(a[j])
    requires forall j :: 0 <= j < |b| ==> IsIntSpace(b[j])
    requires |d| > 0 && forall k :: 0 <= k < |d| ==> IsDigit(d[k])
    ensures ParseInt(a + d + b) == Success(DigitsValue(d))
  {
    TrimPadded(a, d, b);
    PlainGroup(d);
  }

  /** The unit separator U+001F is whitespace to `str.strip()` but not to
      `int()`: `int('2\x1f')` is a value error. */
  lemma UnitSeparatorNotSkipped()
    ensures Strip("2\U{1F}") == "2"
    ensures ParseInt("2\U{1F}") == Failure(ValueError)
  {
    var s := "2\U{1F}";
    assert Strip(s[..1]) == "2";
    FrontUnique(s, 0);
    BackUnique(s, 2);
    assert TrimIntSpace(s) == s;
    assert !IsDigitGroup(s);
  }

  /** A minus sign followed by digits is read as the negated number. */
  lemma ParseNegativeDigits(d: string)
    requires |d| > 0 && forall k :: 0 <= k < |d| ==> IsDigit(d[k])
    ensures ParseInt("-" + d) == Success(-(DigitsValue(d) as int))
  {
    TrimSigned("-" + d);
    NegatedGroup(d);
  }

  lemma NegatedGroup(d: string)
    requires |d| > 0 && forall k :: 0 <= k < |d| ==> IsDigit(d[k])
    ensures ParseSigned("-" + d) == Success(-(DigitsValue(d) as int))
  {
    assert ("-" + d)[1..] == d;
    DigitsHaveNoUnderscorePair(d);
    assert IsDigitGroup(d);
  }

  lemma TrimSigned(s: string)
    requires |s| > 1 && s[0] == '-' && IsDigit(s[|s| - 1])
    ensures TrimIntSpace(s) == s
  {
    assert "" + s + "" == s;
    TrimPadded("", s, "");
  }

  /** `int(str(n)) == n`. */
  lemma ParseShow(n: int)
    ensures ParseInt(Show(n)) == Success(n)
  {
    if n < 0 {
      ParseShowNegative(n);
    } else {
      ParseShowNat(n);
    }
  }

  lemma ParseShowNat(n: nat)
    ensures ParseInt(ShowNat(n)) == Success(n)
  {
    ShowNatValue(n);
    ParseDigits(ShowNat(n));
  }

  lemma ParseShowNegative(n: int)
    requires n < 0
    ensures ParseInt("-" + ShowNat(-n)) == Success(n)
  {
    var d := ShowNat(-n);
    ShowNatValue(-n);
    ParseNegativeDigits(d);
    assert -(DigitsValue(d) as int) == n;
  }
}

=== FILE: scaling.dfy ===
/** Turning rational roots into whole coefficients (`gcd`, `lcm`,
    `lcmMultiple`, `balanceCoefficients`, scripts/app.py lines 158-190): every
    root is multiplied by the least common multiple of the denominators. */
module Scaling {
  import opened Wrappers

  /** `d` divides `n`. */
  predicate Divides(d: int, n: int) {
    d != 0 && n % d == 0
  }

  lemma MulSign(d: int, t: int)
    requires d > 0
    ensures t >= 1 ==> d * t >= d
    ensures t <= -1 ==> d * t <= -d
  {
  }

  /** `d * k` divided by `d` is `k`, with nothing left over. */
  lemma MultipleDivides(d: int, k: int)
    requires d > 0
    ensures (d * k) / d == k && Divides(d, d * k)
  {
    var q, r := (d * k) / d, (d * k) % d;
    assert d * (k - q) == r;
    MulSign(d, k - q);
  }

  lemma DividesWitness(d: int, n: int)
    requires d > 0 && Divides(d, n)
    ensures n == d * (n / d)
  {
  }

  lemma CancelPositive(g: int, x: int, y: int)
    requires g > 0 && x * g == y * g
    ensures x == y
  {
    assert g * (x - y) == 0;
    MulSign(g, x - y);
  }

  /** Multiples of `d` are closed under addition and subtraction. */
  lemma DividesSumDifference(d: int, a: int, b: int)
    requires d > 0 && Divides(d, a) && Divides(d, b)
    ensures Divides(d, a + b) && Divides(d, a - b)
  {
    var p, q := a / d, b / d;
    DividesWitness(d, a);
    DividesWitness(d, b);
    assert a + b == d * (p + q);
    assert a - b == d * (p - q);
    MultipleDivides(d, p + q);
    MultipleDivides(d, p - q);
  }

  lemma DividesTransitive(a: int, b: int, c: int)
    requires a > 0 && b > 0 && Divides(a, b) && Divides(b, c)
    ensures Divides(a, c)
  {
    var p, q := b / a, c / b;
    DividesWitness(a, b);
    DividesWitness(b, c);
    assert c == a * (p * q);
    MultipleDivides(a, p * q);
  }

  // ---------------------------------------------------------------------------
  // gcd and lcm
  // ---------------------------------------------------------------------------

  /** `gcd(a, b)` by repeated subtraction (lines 160-166). The loop only ends
      for positive arguments, which is all the callers pass. */
  function Gcd(a: int, b: int): (g: int)
    requires a > 0 && b > 0
    ensures 0 < g <= a && g <= b
    decreases a + b
  {
    if a == b then a else if a > b then Gcd(a - b, b) else Gcd(a, b - a)
  }

  /** The result divides both arguments. */
  lemma {:induction false} GcdDivides(a: int, b: int)
    requires a > 0 && b > 0
    ensures Divides(Gcd(a, b), a) && Divides(Gcd(a, b), b)
    decreases a + b
  {
    var g := Gcd(a, b);
    if a == b {
      MultipleDivides(a, 1);
    } else if a > b {
      GcdDivides(a - b, b);
      DividesSumDifference(g, a - b, b);
      assert a - b + b == a;
    } else {
      GcdDivides(a, b - a);
      DividesSumDifference(g, b - a, a);
      assert b - a + a == b;
    }
  }

  /** Every common divisor of the arguments divides the result, so no common
      divisor is greater. */
  lemma {:induction false} GcdGreatest(a: int, b: int, d: int)
    requires a > 0 && b > 0 && d > 0 && Divides(d, a) && Divides(d, b)
    ensures Divides(d, Gcd(a, b))
    decreases a + b
  {
    if a > b {
      DividesSumDifference(d, a, b);
      GcdGreatest(a - b, b, d);
    } else if a < b {
      DividesSumDifference(d, b, a);
      GcdGreatest(a, b - a, d);
    }
  }

  /** The result is an integer combination of the arguments (Bézout). */
  lemma {:induction false} GcdCombination(a: int, b: int) returns (u: int, v: int)
    requires a > 0 && b > 0
    ensures Gcd(a, b) == u * a + v * b
    decreases a + b
  {
    if a == b {
      u, v := 1, 0;
    } else if a > b {
      var u', v' := GcdCombination(a - b, b);
      u, v := u', v' - u';
      assert u' * (a - b) + v' * b == u' * a + (v' - u') * b;
    } else {
      var u', v' := GcdCombination(a, b - a);
      u, v := u' - v', v';
      assert u' * a + v' * (b - a) == (u' - v') * a + v' * b;
    }
  }

  /** `lcm(a, b)`: `abs(a * b) // gcd(a, b)` (line 171), here for the
      positive arguments the callers pass. A multiple of both arguments whose
      product with their greatest common divisor is their product. */
  function Lcm(a: int, b: int): (l: int)
    requires a > 0 && b > 0
    ensures l > 0 && Divides(a, l) && Divides(b, l)
    ensures l * Gcd(a, b) == a * b
  {
    LcmFacts(a, b);
    (a * b) / Gcd(a, b)
  }

  lemma LcmFacts(a: int, b: int)
    requires a > 0 && b > 0
    ensures var l := (a * b) / Gcd(a, b);
      l > 0 && Divides(a, l) && Divides(b, l) && l * Gcd(a, b) == a * b
  {
    var g := Gcd(a, b);
    GcdDivides(a, b);
    var p, q := a / g, b / g;
    DividesWitness(g, a);
    DividesWitness(g, b);
    assert a * b == g * (p * b);
    MultipleDivides(g, p * b);
    var l := (a * b) / g;
    assert l == p * b;
    assert p > 0 by { MulSign(g, p); }
    assert l == b * p;
    MultipleDivides(b, p);
    assert l == a * q;
    MultipleDivides(a, q);
  }

  /** Every positive common multiple of the arguments is a multiple of the
      result, so no common multiple is smaller. */
  lemma LcmLeast(a: int, b: int, m: int)
    requires a > 0 && b > 0 && m > 0 && Divides(a, m) && Divides(b, m)
    ensures Divides(Lcm(a, b), m)
  {
    var g := Gcd(a, b);
    var l := Lcm(a, b);
    var u, v := GcdCombination(a, b);
    DividesWitness(a, m);
    DividesWitness(b, m);
    var p, q := m / a, m / b;
    LeastCombination(a, b, g, l, m, u, v, p, q);
    CancelPositive(g, m, l * (q * u + p * v));
    MultipleDivides(l, q * u + p * v);
  }

  lemma LeastCombination(a: int, b: int, g: int, l: int, m: int, u: int, v: int, p: int, q: int)
    requires g == u * a + v * b && l * g == a * b && m == a * p && m == b * q
    ensures m * g == (l * (q * u + p * v)) * g
  {
    calc {
      m * g;
      m * (u * a) + m * (v * b);
      (b * q) * (u * a) + (a * p) * (v * b);
      (a * b) * (q * u + p * v);
      (l * g) * (q * u + p * v);
    }
  }

  // ---------------------------------------------------------------------------
  // lcmMultiple
  // ---------------------------------------------------------------------------

  /** The loop of lines 177-178 from index `i` on, with `acc` the result so far. */
  function LcmFold(acc: int, numbers: seq<int>, i: nat): (r: int)
    requires acc > 0 && i <= |numbers|
    requires forall j :: 0 <= j < |numbers| ==> numbers[j] > 0
    ensures r > 0 && Divides(acc, r)
    ensures forall j :: i <= j < |numbers| ==> Divides(numbers[j], r)
    decreases |numbers| - i
  {
    if i == |numbers| then
      MultipleDivides(acc, 1);
      acc
    else
      var next := Lcm(acc, numbers[i]);
      var r := LcmFold(next, numbers, i + 1);
      DividesTransitive(acc, next, r);
      DividesTransitive(numbers[i], next, r);
      r
  }

  /** `lcmMultiple(numbers)`: fewer than two numbers is an index error
      (`numbers[1]`); otherwise a positive common multiple of all of them. */
  function LcmMultiple(numbers: seq<int>): (r: Checked<int>)
    requires forall j :: 0 <= j < |numbers| ==> numbers[j] > 0
    ensures r.Success? <==> |numbers| >= 2
    ensures r.Failure? ==> r.error == IndexError
    ensures r.Success? ==> r.value > 0 && forall j :: 0 <= j < |numbers| ==> Divides(numbers[j], r.value)
  {
    if |numbers| < 2 then Failure(IndexError)
    else
      var first := Lcm(numbers[0], numbers[1]);
      var r := LcmFold(first, numbers, 2);
      DividesTransitive(numbers[0], first, r);
      DividesTransitive(numbers[1], first, r);
      Success(r)
  }

  lemma {:induction false} LcmFoldLeast(acc: int, numbers: seq<int>, i: nat, m: int)
    requires acc > 0 && i <= |numbers| && m > 0
    requires forall j :: 0 <= j < |numbers| ==> numbers[j] > 0
    requires Divides(acc, m) && forall j :: i <= j < |numbers| ==> Divides(numbers[j], m)
    ensures Divides(LcmFold(acc, numbers, i), m)
    decreases |numbers| - i
  {
    if i < |numbers| {
      LcmLeast(acc, numbers[i], m);
      LcmFoldLeast(Lcm(acc, numbers[i]), numbers, i + 1, m);
    }
  }

  /** Every positive common multiple of the numbers is a multiple of the
      result: it is the least common multiple. */
  lemma LcmMultipleLeast(numbers: seq<int>, m: int)
    requires forall j :: 0 <= j < |numbers| ==> numbers[j] > 0
    requires |numbers| >= 2 && m > 0
    requires forall j :: 0 <= j < |numbers| ==> Divides(numbers[j], m)
    ensures Divides(LcmMultiple(numbers).value, m)
  {
    LcmLeast(numbers[0], numbers[1], m);
    LcmFoldLeast(Lcm(numbers[0], numbers[1]), numbers, 2, m);
  }

  // ---------------------------------------------------------------------------
  // balanceCoefficients
  // ---------------------------------------------------------------------------

  /** A `Fraction` as Python holds it, and so as `limit_denominator` returns
      it: a numerator over a positive denominator, in lowest terms (zero is
      `0/1`). */
  datatype Fraction = Fraction(num: int, den: int)

  function ToReal(f: Fraction): real
    requires f.den != 0
  {
    f.num as real / f.den as real
  }

  function Abs(n: int): nat {
    if n < 0 then -n else n
  }

  /** A positive denominator sharing no factor with the numerator. */
  predicate Reduced(f: Fraction) {
    && f.den > 0
    && (if f.num == 0 then f.den == 1 else Gcd(Abs(f.num), f.den) == 1)
  }

  predicate PositiveDenominators(fs: seq<Fraction>) {
    forall i :: 0 <= i < |fs| ==> fs[i].den > 0
  }

  /** Every fraction is in lowest terms, as the fractions of line 185 are. */
  predicate WellFormed(fs: seq<Fraction>) {
    && PositiveDenominators(fs)
    && forall i :: 0 <= i < |fs| ==> Reduced(fs[i])
  }

  function Denominators(fs: seq<Fraction>): (ds: seq<int>)
    requires PositiveDenominators(fs)
    ensures |ds| == |fs| && forall i :: 0 <= i < |ds| ==> ds[i] == fs[i].den && ds[i] > 0
  {
    seq(|fs|, i requires 0 <= i < |fs| => fs[i].den)
  }

  /** Python's `int(n / d)` for a positive `d`: the quotient rounded toward zero. */
  function TruncDiv(n: int, d: int): int
    requires d > 0
  {
    if n >= 0 then n / d else -((-n) / d)
  }

  /** The common denominator of line 187. */
  function CommonDenominator(fs: seq<Fraction>): Checked<int>
    requires PositiveDenominators(fs)
  {
    LcmMultiple(Denominators(fs))
  }

  /** Each whole number is the matching fraction times `l`. */
  predicate ScaledBy(fs: seq<Fraction>, coeffs: seq<int>, l: int)
    requires PositiveDenominators(fs)
  {
    |coeffs| == |fs| && forall i :: 0 <= i < |fs| ==> coeffs[i] as real == ToReal(fs[i]) * l as real
  }

  /** `balanceCoefficients(fractions)`: fewer than two coefficients has no
      common denominator (an index error); otherwise each coefficient times
      the least common multiple `L` of the denominators, a whole number
      because its denominator divides `L`. */
  function BalanceCoefficients(fs: seq<Fraction>): (r: Checked<seq<int>>)
    requires WellFormed(fs)
    ensures r.Success? <==> |fs| >= 2
    ensures r.Failure? ==> r.error == IndexError
    ensures r.Success? ==>
      CommonDenominator(fs).Success? && ScaledBy(fs, r.value, CommonDenominator(fs).value)
  {
    var l :- CommonDenominator(fs);
    DenominatorsDivide(fs, l);
    ScaleAllExact(fs, l);
    Success(ScaleAll(fs, l))
  }

  /** Every denominator divides the common denominator. */
  lemma DenominatorsDivide(fs: seq<Fraction>, l: int)
    requires PositiveDenominators(fs) && CommonDenominator(fs) == Success(l)
    ensures forall i :: 0 <= i < |fs| ==> Divides(fs[i].den, l)
  {
    var ds := Denominators(fs);
    forall i | 0 <= i < |fs| ensures Divides(fs[i].den, l) {
      assert ds[i] == fs[i].den;
    }
  }

  /** Line 188: every fraction times `l`, truncated to a whole number. */
  function ScaleAll(fs: seq<Fraction>, l: int): (r: seq<int>)
    requires PositiveDenominators(fs)
    ensures |r| == |fs|
    ensures forall i :: 0 <= i < |fs| ==> r[i] == TruncDiv(fs[i].num * l, fs[i].den)
  {
    seq(|fs|, i requires 0 <= i < |fs| => TruncDiv(fs[i].num * l, fs[i].den))
  }

  /** When every denominator divides `l`, the truncation in `ScaleAll` loses nothing. */
  lemma ScaleAllExact(fs: seq<Fraction>, l: int)
    requires PositiveDenominators(fs)
    requires forall i :: 0 <= i < |fs| ==> Divides(fs[i].den, l)
    ensures ScaledBy(fs, ScaleAll(fs, l), l)
  {
    var r := ScaleAll(fs, l);
    forall i | 0 <= i < |fs| ensures r[i] as real == ToReal(fs[i]) * l as real {
      ScaleExact(fs[i], l);
    }
  }

  /** Multiplying a fraction by a multiple of its denominator and truncating
      loses nothing. */
  lemma ScaleExact(f: Fraction, l: int)
    requires f.den > 0 && Divides(f.den, l)
    ensures TruncDiv(f.num * l, f.den) as real == ToReal(f) * l as real
  {
    var d, n := f.den, f.num;
    var k := l / d;
    DividesWitness(d, l);
    TruncScaled(n, d, k, l);
    ScaledFraction(n, d, k, l);
  }

  lemma TruncScaled(n: int, d: int, k: int, l: int)
    requires d > 0 && l == d * k
    ensures TruncDiv(n * l, d) == n * k
  {
    assert n * l == d * (n * k);
    TruncOfMultiple(d, n * k);
  }

  /** A multiple of `d` divided by `d`, rounding toward zero, loses nothing. */
  lemma TruncOfMultiple(d: int, p: int)
    requires d > 0
    ensures TruncDiv(d * p, d) == p
  {
    MulSign(d, p);
    if p >= 0 {
      MultipleDivides(d, p);
    } else {
      assert -(d * p) == d * -p;
      MultipleDivides(d, -p);
    }
  }

  /** `(n / d) * (d * k) == n * k` over the reals. */
  lemma ScaledFraction(n: int, d: int, k: int, l: int)
    requires d > 0 && l == d * k
    ensures (n * k) as real == (n as real / d as real) * l as real
  {
    CastMul(n, k);
    CastMul(d, k);
    assert (n as real / d as real) * (d as real * k as real) == n as real * k as real;
  }

  lemma CastMul(x: int, y: int)
    ensures (x * y) as real == x as real * y as real
  {
  }

  // ---------------------------------------------------------------------------
  // The coefficients share no factor
  // ---------------------------------------------------------------------------

  /** A reduced fraction worth 1 is `1/1`. */
  lemma ReducedOne(f: Fraction)
    requires Reduced(f) && ToReal(f) == 1.0
    ensures f == Fraction(1, 1)
  {
    assert f.num as real == f.den as real;
    assert f.num == f.den;
  }

  lemma DividesMultiple(g: int, x: int, c: int)
    requires g > 0 && Divides(g, x)
    ensures Divides(g, c * x)
  {
    var q := x / g;
    DividesWitness(g, x);
    assert c * x == g * (c * q);
    MultipleDivides(g, c * q);
  }

  /** A positive divisor of a positive number is no greater than it. */
  lemma DivisorBound(d: int, n: int)
    requires d > 0 && n > 0 && Divides(d, n)
    ensures d <= n
  {
    DividesWitness(d, n);
    MulSign(d, n / d);
  }

  /** If `g` divides `n * m` and `d * m` for coprime `n` and `d`, it divides `m`. */
  lemma CoprimeFactor(n: int, d: int, m: int, g: int)
    requires d > 0 && g > 0 && Divides(g, n * m) && Divides(g, d * m)
    requires n == 0 ==> d == 1
    requires n != 0 ==> Gcd(Abs(n), d) == 1
    ensures Divides(g, m)
  {
    if n == 0 {
      assert d * m == m;
    } else {
      var a := Abs(n);
      var u, v := GcdCombination(a, d);
      AbsProductDivides(g, n, m);
      CombineDivides(g, a * m, d * m, u, v);
      Distribute(u, a, v, d, m);
    }
  }

  lemma AbsProductDivides(g: int, n: int, m: int)
    requires g > 0 && Divides(g, n * m)
    ensures Divides(g, Abs(n) * m)
  {
    if n < 0 {
      assert Abs(n) * m == -1 * (n * m);
      DividesMultiple(g, n * m, -1);
    }
  }

  lemma CombineDivides(g: int, x: int, y: int, u: int, v: int)
    requires g > 0 && Divides(g, x) && Divides(g, y)
    ensures Divides(g, u * x + v * y)
  {
    DividesMultiple(g, x, u);
    DividesMultiple(g, y, v);
    DividesSumDifference(g, u * x, v * y);
  }

  lemma Distribute(u: int, a: int, v: int, d: int, m: int)
    requires u * a + v * d == 1
    ensures u * (a * m) + v * (d * m) == m
  {
    calc {
      u * (a * m) + v * (d * m);
      (u * a) * m + (v * d) * m;
      (u * a + v * d) * m;
    }
  }

  /** With `l = d * k`, a divisor of `l` and of `n * k` for a reduced `n/d`
      leaves `d` dividing `l / g`. */
  lemma QuotientKeepsDenominator(f: Fraction, k: int, l: int, g: int)
    requires Reduced(f) && l == f.den * k && l > 0 && g > 0
    requires Divides(g, l) && Divides(g, f.num * k)
    ensures Divides(g, l) && Divides(f.den, l / g)
  {
    CoprimeFactor(f.num, f.den, k, g);
    var q := k / g;
    DividesWitness(g, k);
    Reassociate(f.den, g, q);
    MultipleDivides(g, f.den * q);
    MultipleDivides(f.den, q);
  }

  lemma Reassociate(d: int, g: int, q: int)
    ensures d * (g * q) == g * (d * q)
  {
  }

  /** Entry `i` of line 188 is `num * (l / den)`, and `den` divides `l / g`
      for every `g` dividing both it and `l`. */
  lemma EntryKeepsDenominator(fs: seq<Fraction>, l: int, i: nat, g: int)
    requires WellFormed(fs) && i < |fs| && l > 0 && g > 0 && Divides(fs[i].den, l)
    requires Divides(g, l) && Divides(g, ScaleAll(fs, l)[i])
    ensures Divides(fs[i].den, l / g)
  {
    var f := fs[i];
    var k := l / f.den;
    DividesWitness(f.den, l);
    TruncScaled(f.num, f.den, k, l);
    assert Reduced(f);
    QuotientKeepsDenominator(f, k, l, g);
  }

  /** The whole numbers of line 188, taken from reduced fractions one of
      which is 1, share no factor greater than 1. */
  lemma ScaledCoprime(fs: seq<Fraction>, l: int, one: nat, g: int)
    requires WellFormed(fs) && |fs| >= 2 && CommonDenominator(fs) == Success(l)
    requires one < |fs| && fs[one] == Fraction(1, 1)
    requires g > 0 && forall i :: 0 <= i < |fs| ==> Divides(g, ScaleAll(fs, l)[i])
    ensures g == 1
  {
    DenominatorsDivide(fs, l);
    assert Divides(g, l) by {
      TruncScaled(1, 1, l, l);
      assert ScaleAll(fs, l)[one] == l;
    }
    forall i | 0 <= i < |fs| ensures Divides(fs[i].den, l / g) {
      EntryKeepsDenominator(fs, l, i, g);
    }
    QuotientPositive(l, g);
    LeastIsQuotient(fs, l, g);
  }

  /** A common multiple `l / g` of the denominators below their least one
      forces `g == 1`. */
  lemma LeastIsQuotient(fs: seq<Fraction>, l: int, g: int)
    requires PositiveDenominators(fs) && |fs| >= 2 && CommonDenominator(fs) == Success(l)
    requires g > 0 && Divides(g, l) && l / g > 0
    requires forall i :: 0 <= i < |fs| ==> Divides(fs[i].den, l / g)
    ensures g == 1
  {
    var ds := Denominators(fs);
    LcmMultipleLeast(ds, l / g);
    DivisorBound(l, l / g);
    DividesWitness(g, l);
    UnitFactor(l, g, l / g);
  }

  lemma UnitFactor(l: int, g: int, q: int)
    requires g > 0 && q > 0 && l == g * q && l <= q
    ensures g == 1
  {
    if g > 1 {
      MulSign(q, g - 1);
    }
  }

  lemma QuotientPositive(l: int, g: int)
    requires l > 0 && g > 0 && Divides(g, l)
    ensures l / g > 0
  {
    DividesWitness(g, l);
    MulSign(g, l / g);
  }

  /** `balanceCoefficients` of reduced fractions one of which is 1: no
      whole number greater than 1 divides every coefficient, so they are
      the smallest whole numbers in the proportion of the fractions. */
  lemma BalancedCoprime(fs: seq<Fraction>, one: nat, g: int)
    requires WellFormed(fs) && BalanceCoefficients(fs).Success?
    requires one < |fs| && fs[one] == Fraction(1, 1)
    requires g > 0 && forall i :: 0 <= i < |fs| ==> Divides(g, BalanceCoefficients(fs).value[i])
    ensures g == 1
  {
    var l := CommonDenominator(fs).value;
    assert BalanceCoefficients(fs).value == ScaleAll(fs, l);
    ScaledCoprime(fs, l, one, g);
  }
}

=== FILE: solvability.dfy ===
/** What the outcome of the elimination (scripts/app.py lines 98-134) says
    about the system: `pivot` fails exactly when a column left of the last
    row's diagonal is a combination of the columns before it, and the
    checked elimination accepts exactly those systems `gauss` accepts that
    have a solution other than zero. */
module Solvability {
  import opened Wrappers
  import opened Linear
  import opened Elimination
  import opened BackSubstitution

  /** `x` solves the system, is 1 at unknown `k` and 0 after it: column `k`
      is a combination of the columns before it. */
  predicate DependentAt(m: Matrix, w: nat, k: nat, x: Vector) {
    && |x| == w && k < w && IsSolution(m, x)
    && x[k] == 1.0 && forall j :: k < j < w ==> x[j] == 0.0
  }

  /** Some solution of the system is not the zero vector. */
  ghost predicate HasNonzeroSolution(m: Matrix, w: nat) {
    exists x: Vector :: |x| == w && IsSolution(m, x) && !IsZeroRow(x)
  }

  /** The vector with 1 at `k` and 0 elsewhere. */
  function Unit(w: nat, k: nat): (e: Vector)
    ensures |e| == w
    ensures forall j :: 0 <= j < w ==> e[j] == if j == k then 1.0 else 0.0
  {
    seq(w, j requires 0 <= j < w => if j == k then 1.0 else 0.0)
  }

  /** A row that is zero before column `k`, against a vector that is zero
      after `k`, gives the single term of unknown `k`. */
  lemma DotAtLast(a: Vector, x: Vector, k: nat)
    requires |a| == |x| && k < |a|
    requires forall c :: 0 <= c < k ==> a[c] == 0.0
    requires forall j :: k < j < |x| ==> x[j] == 0.0
    ensures Dot(a, x) == a[k] * x[k]
  {
    DotSkipZeros(a, x, k);
    DotAt(a, x, k);
    var y := x[k + 1..];
    DotScale(a[k + 1..], y, y, 0.0);
  }

  /** Back substitution over the first `n` rows, started from the unit
      vector at `k`, satisfies those rows and keeps 1 at `k` and 0 after it. */
  lemma TopSolution(u: Matrix, w: nat, n: nat, k: nat) returns (x: Vector)
    requires Rect(u, w) && n <= |u| <= w && n <= k < w
    requires UpperTriangular(u[..n]) && forall i :: 0 <= i < n ==> u[i][i] != 0.0
    ensures |x| == w && x[k] == 1.0 && (forall j :: k < j < w ==> x[j] == 0.0)
    ensures forall i :: 0 <= i < n ==> Dot(u[i], x) == 0.0
  {
    var top := u[..n];
    var e := Unit(w, k);
    assert forall i :: 0 <= i < n ==> top[i][i] != 0.0;
    x := Solve(top, e, n).value;
    SolveSolves(top, e, n);
    forall i | 0 <= i < n ensures Dot(u[i], x) == 0.0 {
      assert u[i] == top[i];
    }
  }

  // ---------------------------------------------------------------------------
  // When `pivot` fails
  // ---------------------------------------------------------------------------

  /** Where the pivot step fails at row `k`, column `k` is zero from the
      diagonal down, so back substitution over the rows above gives a
      solution that is 1 at `k` and 0 after it. */
  lemma StuckColumn(m: Matrix, w: nat, k: nat) returns (x: Vector)
    requires Rect(m, w) && k < |m| <= w
    requires LowerZero(m, k) && DiagBefore(m, k)
    requires PivotStep(m, w, k).Failure?
    ensures k < |m| - 1 && DependentAt(m, w, k, x)
  {
    assert UpperTriangular(m[..k]);
    x := TopSolution(m, w, k, k);
    forall i | k <= i < |m| ensures Dot(m[i], x) == 0.0 {
      DotAtLast(m[i], x, k);
    }
  }

  /** A failed elimination from `row` on meets a column, at or after `row`
      and left of the last row, that depends on the columns before it. */
  lemma {:induction false} StuckIsDependent(m: Matrix, w: nat, row: nat) returns (k: nat, x: Vector)
    requires Rect(m, w) && row <= |m| <= w
    requires LowerZero(m, row) && DiagBefore(m, row)
    requires Eliminate(m, w, row).Failure?
    ensures row <= k < |m| - 1 && DependentAt(m, w, k, x)
    decreases |m| - row
  {
    if PivotStep(m, w, row).Failure? {
      k := row;
      x := StuckColumn(m, w, row);
    } else {
      var p := PivotStep(m, w, row).value;
      PivotStepKeeps(m, w, row, []);
      StepKeeps(p, w, row);
      var n := EliminateBelow(p, w, row);
      k, x := StuckIsDependent(n, w, row + 1);
      PivotStepKeeps(m, w, row, x);
      EliminateBelowSolutions(p, w, row, x);
    }
  }

  /** A solved row of an upper triangular system with a nonzero diagonal
      entry at `k`, against a vector that is 0 after `k`, forces 0 at `k`. */
  lemma RowPins(u: Matrix, k: nat, x: Vector)
    requires Rect(u, |x|) && k < |u| && k < |x|
    requires UpperTriangular(u) && u[k][k] != 0.0
    requires Dot(u[k], x) == 0.0 && forall j :: k < j < |x| ==> x[j] == 0.0
    ensures x[k] == 0.0
  {
    DotAtLast(u[k], x, k);
    NonzeroFactor(u[k][k], x[k]);
  }

  /** After a successful elimination, a solution that is 0 after unknown `k`,
      left of the last row, is 0 at `k` as well. */
  lemma SolvedIndependent(m: Matrix, w: nat, k: nat, x: Vector)
    requires Rect(m, w) && Eliminate(m, w, 0).Success?
    requires k < |m| - 1 && |x| == w && IsSolution(m, x)
    requires forall j :: k < j < w ==> x[j] == 0.0
    ensures x[k] == 0.0
  {
    var u := Eliminate(m, w, 0).value;
    EliminateSolutions(m, w, 0, x);
    RowPins(u, k, x);
  }

  /** With no more rows than columns, the elimination fails (with `NoPivot`,
      the source's `False`) exactly when some column left of the last row's
      diagonal is a combination of the columns before it. */
  lemma EliminateFailsIff(m: Matrix, w: nat)
    requires Rect(m, w) && |m| <= w
    ensures Eliminate(m, w, 0) == Failure(NoPivot) <==>
      exists k: nat, x: Vector :: k < |m| - 1 && DependentAt(m, w, k, x)
  {
    if Eliminate(m, w, 0).Failure? {
      var k, x := StuckIsDependent(m, w, 0);
    } else {
      forall k: nat, x: Vector | k < |m| - 1 && |x| == w && IsSolution(m, x) && (forall j :: k < j < w ==> x[j] == 0.0)
        ensures x[k] == 0.0
      {
        SolvedIndependent(m, w, k, x);
      }
    }
  }

  // ---------------------------------------------------------------------------
  // When the checked elimination accepts
  // ---------------------------------------------------------------------------

  /** An upper triangular system with a nonzero diagonal above its last row
      and either fewer rows than columns or a zero bottom row has a solution
      other than zero: the unit vector at the last row's column, when its
      diagonal entry is zero, or at the last column otherwise,
      back-substituted through the rows above. */
  lemma TriangularNonzeroSolution(u: Matrix, w: nat) returns (x: Vector)
    requires Rect(u, w) && 0 < |u| <= w && UpperTriangular(u)
    requires forall i :: 0 <= i < |u| - 1 ==> u[i][i] != 0.0
    requires |u| < w || IsZeroRow(u[|u| - 1])
    ensures |x| == w && IsSolution(u, x) && !IsZeroRow(x)
  {
    var n := |u|;
    assert UpperTriangular(u[..n - 1]);
    if u[n - 1][n - 1] == 0.0 {
      x := TopSolution(u, w, n - 1, n - 1);
      DotAtLast(u[n - 1], x, n - 1);
      assert x[n - 1] == 1.0;
    } else {
      assert u[..n] == u;
      x := TopSolution(u, w, n, w - 1);
      assert x[w - 1] == 1.0;
    }
  }

  /** An accepted system has a solution other than zero. */
  lemma AcceptedSolution(m: Matrix) returns (x: Vector)
    requires |m| > 0 && Rect(m, |m[0]|)
    requires GaussChecked(m).Success?
    ensures |x| == |m[0]| && IsSolution(m, x) && !IsZeroRow(x)
  {
    var w := |m[0]|;
    var u := Eliminate(m, w, 0).value;
    x := TriangularNonzeroSolution(u, w);
    EliminateSolutions(m, w, 0, x);
  }

  /** Among the systems `gauss` accepts, the checked elimination accepts
      exactly those with a solution other than zero, that is, the equations
      that can be balanced at all. */
  lemma CheckedAcceptsIff(m: Matrix)
    requires |m| > 0 && Rect(m, |m[0]|) && Gauss(m).Success?
    ensures GaussChecked(m).Success? <==> HasNonzeroSolution(m, |m[0]|)
  {
    if GaussChecked(m).Success? {
      var x := AcceptedSolution(m);
    } else {
      GaussCheckedRefines(m);
      forall x: Vector | |x| == |m[0]| && IsSolution(m, x) ensures IsZeroRow(x) {
        RejectedOnlyZero(m, x);
      }
    }
  }
}

=== FILE: text.dfy ===
/** Characters and strings as Python's `str` methods see them: character classes,
    `split` on one separator character, `strip`, and concatenation. */
module Text {

  /** Python's `str.isspace`: the characters `str.strip()` removes. */
  predicate IsSpace(c: char) {
    || ('\t' <= c <= '\r')                   // tab, line feed, vertical tab, form feed, carriage return
    || ('\U{1C}' <= c <= '\U{1F}')           // file, group, record and unit separators
    || c == ' ' || c == '\U{85}' || c == '\U{A0}' || c == '\U{1680}'
    || ('\U{2000}' <= c <= '\U{200A}')
    || c == '\U{2028}' || c == '\U{2029}' || c == '\U{202F}' || c == '\U{205F}' || c == '\U{3000}'
  }

  /** `[A-Z]` in a regular expression. */
  predicate IsUpper(c: char) {
    'A' <= c <= 'Z'
  }

  /** Code points 97 to 122, the `lowerCaseAlphabet` of the matrix builder. */
  predicate IsLower(c: char) {
    'a' <= c <= 'z'
  }

  /** An ASCII decimal digit. */
  predicate IsDigit(c: char) {
    '0' <= c <= '9'
  }

  /** Concatenation of a sequence of sequences, in order (`''.join` for strings). */
  function Concat<T>(ss: seq<seq<T>>): seq<T> {
    if |ss| == 0 then [] else ss[0] + Concat(ss[1..])
  }

  /** `sep.join(parts)` for a one-character separator. */
  function Join(parts: seq<string>, sep: char): string
    decreases |parts|
  {
    if |parts| == 0 then ""
    else if |parts| == 1 then parts[0]
    else parts[0] + [sep] + Join(parts[1..], sep)
  }

  /** `s.split(sep)`: the maximal pieces between occurrences of `sep`; an empty
      text gives one empty piece, and adjacent separators give empty pieces. */
  function Split(s: string, sep: char): (parts: seq<string>)
    ensures |parts| >= 1
    ensures forall i :: 0 <= i < |parts| ==> sep !in parts[i]
    ensures Join(parts, sep) == s
    decreases |s|
  {
    if |s| == 0 then [""]
    else
      var rest := Split(s[1..], sep);
      if s[0] == sep then
        assert ([""] + rest)[1..] == rest;
        [""] + rest
      else
        var parts := [[s[0]] + rest[0]] + rest[1..];
        assert parts[1..] == rest[1..];
        assert s == [s[0]] + s[1..];
        parts
  }

  /** Splitting a text with no separator gives the text back as the only piece. */
  lemma {:induction false} SplitNoSeparator(p: string, sep: char)
    requires sep !in p
    ensures Split(p, sep) == [p]
    decreases |p|
  {
    if |p| > 0 {
      SplitNoSeparator(p[1..], sep);
      assert [p[0]] + p[1..] == p;
    }
  }

  /** A separator after a separator-free piece starts a new piece. */
  lemma {:induction false} SplitAfterPiece(p: string, sep: char, t: string)
    requires sep !in p
    ensures Split(p + [sep] + t, sep) == [p] + Split(t, sep)
    decreases |p|
  {
    if |p| == 0 {
      assert p + [sep] + t == [sep] + t;
      assert ([sep] + t)[1..] == t;
    } else {
      assert (p + [sep] + t)[1..] == p[1..] + [sep] + t;
      SplitAfterPiece(p[1..], sep, t);
      assert [p[0]] + p[1..] == p;
    }
  }

  /** Joining separator-free pieces and splitting again gives the pieces back. */
  lemma {:induction false} SplitJoin(parts: seq<string>, sep: char)
    requires |parts| >= 1
    requires forall i :: 0 <= i < |parts| ==> sep !in parts[i]
    ensures Split(Join(parts, sep), sep) == parts
    decreases |parts|
  {
    if |parts| == 1 {
      SplitNoSeparator(parts[0], sep);
    } else {
      SplitJoin(parts[1..], sep);
      SplitAfterPiece(parts[0], sep, Join(parts[1..], sep));
      assert [parts[0]] + parts[1..] == parts;
    }
  }

  /** `r` is what remains of `s` once `i` leading and some trailing whitespace are removed. */
  predicate StrippedAt(s: string, r: string, i: nat) {
    && i + |r| <= |s| && r == s[i..i + |r|]
    && (forall k :: 0 <= k < i ==> IsSpace(s[k]))
    && (forall k :: i + |r| <= k < |s| ==> IsSpace(s[k]))
  }

  /** `s.strip()`: whitespace is removed from both ends until neither end is whitespace. */
  function Strip(s: string): string
    decreases |s|
  {
    if |s| > 0 && IsSpace(s[0]) then Strip(s[1..])
    else if |s| > 0 && IsSpace(s[|s| - 1]) then Strip(s[..|s| - 1])
    else s
  }

  /** What `strip` leaves is a piece of the text with only whitespace before
      and after it, and no whitespace at either of its own ends. */
  lemma {:induction false} StripTrims(s: string)
    ensures exists i :: StrippedAt(s, Strip(s), i)
    ensures var r := Strip(s); |r| == 0 || (!IsSpace(r[0]) && !IsSpace(r[|r| - 1]))
    decreases |s|
  {
    var r := Strip(s);
    if |s| > 0 && IsSpace(s[0]) {
      var t := s[1..];
      StripTrims(t);
      var i :| StrippedAt(t, r, i);
      DropFirst(s, r, i);
    } else if |s| > 0 && IsSpace(s[|s| - 1]) {
      var t := s[..|s| - 1];
      StripTrims(t);
      var i :| StrippedAt(t, r, i);
      DropLast(s, r, i);
    } else {
      assert StrippedAt(s, r, 0);
    }
  }

  lemma DropFirst(s: string, r: string, i: nat)
    requires |s| > 0 && IsSpace(s[0]) && StrippedAt(s[1..], r, i)
    ensures StrippedAt(s, r, i + 1)
  {
    var t := s[1..];
    assert s[i + 1..i + 1 + |r|] == t[i..i + |r|];
    forall k | 0 <= k < i + 1 ensures IsSpace(s[k]) {
      if k > 0 { assert s[k] == t[k - 1]; }
    }
    forall k | i + 1 + |r| <= k < |s| ensures IsSpace(s[k]) {
      assert s[k] == t[k - 1];
    }
  }

  lemma DropLast(s: string, r: string, i: nat)
    requires |s| > 0 && IsSpace(s[|s| - 1]) && StrippedAt(s[..|s| - 1], r, i)
    ensures StrippedAt(s, r, i)
  {
    var t := s[..|s| - 1];
    assert s[i..i + |r|] == t[i..i + |r|];
    forall k | 0 <= k < i ensures IsSpace(s[k]) {
      assert s[k] == t[k];
    }
    forall k | i + |r| <= k < |s| ensures IsSpace(s[k]) {
      if k < |s| - 1 { assert s[k] == t[k]; }
    }
  }

  /** Any whitespace before and after a text with no outer whitespace is
      exactly what `strip` removes. */
  lemma {:induction false} StripPadded(a: string, p: string, b: string)
    requires forall k :: 0 <= k < |a| ==> IsSpace(a[k])
    requires forall k :: 0 <= k < |b| ==> IsSpace(b[k])
    requires |p| == 0 || (!IsSpace(p[0]) && !IsSpace(p[|p| - 1]))
    ensures Strip(a + p + b) == p
    decreases |a| + |b|
  {
    var s := a + p + b;
    if |a| > 0 {
      assert s[0] == a[0];
      assert s[1..] == a[1..] + p + b;
      StripPadded(a[1..], p, b);
    } else if |b| > 0 && |p| == 0 {
      assert s == b && s[1..] == a + p + b[1..];
      StripPadded(a, p, b[1..]);
    } else if |b| > 0 {
      assert s[0] == p[0] && s[|s| - 1] == b[|b| - 1];
      assert s[..|s| - 1] == a + p + b[..|b| - 1];
      StripPadded(a, p, b[..|b| - 1]);
    } else {
      assert s == p;
    }
  }
}

=== FILE: wrappers.dfy ===
/** Failure-compatible result types and the errors the balancer can end in. */
module Wrappers {

  /** The ways a stage of the balancer can stop without a value. The first four
      are what the Python code raises or returns; the last is the check the
      corrected elimination adds. */
  datatype Error =
    | IndexError          // a list index out of range (`split('=')[1]`, `matrix[0]`, ...)
    | ValueError          // `int(...)` of a text that is not an integer literal
    | ZeroDivisionError   // division by a zero diagonal entry
    | NoPivot             // `gauss` returns False because `pivot` found no nonzero row
    | NonzeroRowDropped   // the corrected elimination refuses to drop a nonzero row

  datatype Option<+T> = None | Some(value: T)

  datatype Result<+T, +E> = Success(value: T) | Failure(error: E) {

    predicate IsFailure() {
      Failure?
    }

    function PropagateFailure<U>(): Result<U, E>
      requires Failure?
    {
      Failure(error)
    }

    function Extract(): T
      requires Success?
    {
      value
    }
  }

  type Checked<T> = Result<T, Error>
}
